=== FILE: README.md ===
# Link field plugin for Strapi, modelled in Dafny

This project models the core of a Strapi plugin that adds a "link" custom field.
A link value holds:

- a link type: a manual `url`, an uploaded `file`, or a content type such as `api::article.article`;
- the related record or file;
- the link text;
- the resolved URL;
- an "open in new tab" flag.

The project has three parts:

- **Server side** (`service.dfy`, `url_template.dfy`, `config.dfy`):
  - URL generation expands the URL template configured for the content type, such as `/blog/{slug}`, against the related record;
  - the configured relation types are listed;
  - the relation-options query is guarded and built;
  - the plugin configuration is checked at load time by its validator.
- **Admin side** (`link_field.dfy`): the field component is a state machine.
  - The value the form holds, the discovered relation types, the options of the current relation, and the in-flight flag and dedup key of URL generation are fields of the class `LinkField.Component`.
  - Each handler, each React effect and the media dialog's close callback is one method.
  - A network call is split into a start method and a completion method that takes the response as a parameter.
  - The decisions those methods apply are pure functions, and the lemmas about those functions say what the component promises. Examples:
    - a write made by the URL effect settles in one step;
    - a link-type change never triggers a request;
    - a key once requested is not requested again until a link-type change resets the recorded key (`Scenarios.SwitchBackRequestsAgain`, `Scenarios.RevertedSwitchRequestsAgain`);
    - a completion does not loop.
- **Event sequences** (`scenarios.dfy`): each sequence is a method that drives a fresh component and states what happens.

Shared shapes (`types.dfy`):

- `Slot` tells a missing property from a `null` one from a set one.
- JavaScript truthiness is explicit: an id of 0, an empty link type and an empty URL count as absent.
- `RelatedData` is an open record whose `id` is numeric and whose `url` is a string.

`decimal.dfy` models `String(n)` for integers and proves it injective. The model needs that to show that the relation select finds an option by the text of its id.

Some behaviours of the code are easy to miss; the model keeps them as written:

- `handleChange` drops the URL on a link-type change only when the previous type was not `url`:
  - switching from `url` to a relation keeps the manual URL until a request for a picked record completes with a different URL; a record whose id is falsy (such as 0) starts no request, so the manual URL stays;
  - switching from `url` to `file` is cleared only afterwards, by the URL effect.
- A generation response is applied to the value the request started from, with no staleness check. Both completion branches write that captured value with only its URL replaced, so every edit made while the request was pending is undone whenever the completion writes: the link type and related data (`Scenarios.StaleResponseRevertsSwitch`), and equally the text, the URL and the new-tab flag (`LinkField.CompletedValue`; shown for the text by `Scenarios.StaleResponseRevertsEdit`). The completion writes:
  - on success, when the generated URL (or `""`) differs from the URL captured with the request;
  - on failure, when the captured URL was non-empty.
  When the completion writes nothing, the edits stand. A switch that a completion has undone has still reset the recorded key, so the next effect requests the restored key again (`Scenarios.RevertedSwitchRequestsAgain`).
- The dedup key is recorded before the request, so a failed generation is not retried for the same link type and id (`Scenarios.FailedRequestNotRetried`).
- The validator checks only that `{` and `}` both occur in a template, in any order. It does not check for a placeholder.

## Model

| member | source | states |
|---|---|---|
| Decimal.NatToDecimal | server/src/services/service.ts:79 | the text of a natural number is a non-empty run of digits without a leading zero |
| Decimal.IntToDecimal | server/src/services/service.ts:79 | `String(n)` of an integer is a canonical numeral, with a minus sign exactly for negative numbers |
| Decimal.IntToDecimalRoundTrip | server/src/services/service.ts:79 | reading back the text of an integer gives the integer |
| Decimal.IntToDecimalInjective | admin/src/components/LinkField.tsx:288 | two integers have the same text exactly when they are equal |
| UrlTemplate.ProcessUrlTemplate | server/src/services/service.ts:75-86 | a template in which the pass matches no token comes back unchanged |
| UrlTemplate.Replacement | server/src/services/service.ts:77-80 | a token becomes the text of a value that is neither null nor missing, and otherwise stays as the matched `{name}` |
| UrlTemplate.ValueText | server/src/services/service.ts:79 | `String(value)`: a string is its own text; a number's text is a canonical numeral that reads back as the number |
| UrlTemplate.WordRun | server/src/services/service.ts:77 | the greedy `\w+` takes the longest prefix of word characters |
| UrlTemplate.TokenAt | server/src/services/service.ts:77 | a match found at the front is `{`, a non-empty word name, `}`; there is no match unless the text starts with `{` |
| UrlTemplate.TokenAtComplete | server/src/services/service.ts:77 | every text that starts with a well-formed token is matched at the front, with that name |
| UrlTemplate.TokenNames | server/src/services/service.ts:77 | the names the pass matches are all well-formed word names |
| UrlTemplate.ExpandToken | server/src/services/service.ts:77-80 | a leading token is replaced and the scan resumes right after it |
| UrlTemplate.ExpandLiteral | server/src/services/service.ts:77 | a character that starts no match is copied and the scan moves on by one |
| UrlTemplate.ExpandDependsOnlyOnTokens | server/src/services/service.ts:77-80 | two records that agree on the matched names give the same URL |
| UrlTemplate.ExpandWithoutValues | server/src/services/service.ts:79 | when every matched name is null or missing, the template comes back unchanged |
| UrlTemplate.ExpandWithoutBrace | server/src/services/service.ts:77 | a template without `{` has no tokens and is returned as it is |
| UrlTemplate.ExpandPrefixWithoutBrace | server/src/services/service.ts:77 | text without `{` in front of a template is copied ahead of the expansion of the rest |
| UrlTemplate.ExpandTwoTokens | server/src/services/service.ts:77-80 | in literal-token-literal-token, each token is replaced in place |
| UrlTemplate.ExpandEmptyRecord | server/src/services/service.ts:77-80 | an empty record leaves every template unchanged, e.g. `/posts/{slug}` |
| UrlTemplate.NoRescan | server/src/services/service.ts:77-80 | substituted text is not scanned again: `/{a}` with a = `{b}` gives `/{b}` |
| UrlTemplate.SubstitutionExample | server/src/services/service.ts:75-86 | `/posts/{slug}-{id}` with slug `intro` and id 42 gives `/posts/intro-42` |
| UrlTemplate.ExpandTwoTokensIn | server/src/services/service.ts:77-80 | a template made of literal, token, literal, token expands to the literals with both replacements |
| UrlTemplate.EmptyBracesPassThrough | server/src/services/service.ts:77 | `{}` is plain text to the pass |
| UrlTemplate.NonWordNamePassThrough | server/src/services/service.ts:77 | `{a-b}` is plain text to the pass |
| UrlTemplate.LoneBracesPassThrough | server/src/services/service.ts:77 | `}{` is plain text to the pass |
| PluginConfig.OwnKeys | server/src/services/service.ts:91 | `Object.keys`: an object's property names in order, index names for arrays and strings, none for numbers and booleans; null is excluded, since `Object.keys(null)` throws and callers pass `relations \|\| {}` |
| PluginConfig.Entries | server/src/config/index.ts:16 | `Object.entries` of an object is its fields; of an array, its items under index names |
| PluginConfig.Lookup | server/src/services/service.ts:60 | a property is found exactly when some field has that name, and what is found is the value of the first such field |
| PluginConfig.Property | server/src/config/index.ts:17 | only an object has a property named like `urlTemplate` |
| PluginConfig.EntryVerdict | server/src/config/index.ts:17-28 | a null entry throws; an entry whose template is missing, empty or not a string gets "required" for its content type; a template without both braces gets "placeholder" |
| PluginConfig.CheckEntries | server/src/config/index.ts:16-29 | the loop accepts exactly when every entry passes, and otherwise reports the error of the first entry that fails |
| PluginConfig.Validate | server/src/config/index.ts:11-30 | a truthy non-object `relations` is rejected first; otherwise it accepts exactly when every entry of `relations` (none when it is falsy) passes, and a rejection carries the error of the first entry that fails, every earlier entry having passed |
| PluginConfig.DefaultConfig | server/src/config/index.ts:7-10 | the default `relations` is an empty object: it has no entries and the validator accepts it |
| PluginConfig.RelationsMalformed | server/src/config/index.ts:12-14 | the validator's first check fails exactly for a `relations` that is `true`, a non-zero number or a non-empty string |
| PluginConfig.RelationEntries | server/src/config/index.ts:16 | `Object.entries(config.relations \|\| {})`: none for a missing or falsy `relations`; otherwise exactly the `[key, value]` pairs of `relations`, one per own key, in key order |
| PluginConfig.BracesInAnyOrderAccepted | server/src/config/index.ts:24 | `}{` and `{}` pass as templates; `/posts/{slug` is rejected for a missing brace |
| PluginConfig.FalsyRelationsAccepted | server/src/config/index.ts:12-16 | a falsy `relations` means no relations and is accepted |
| PluginConfig.AcceptedTemplates | server/src/config/index.ts:16-28 | in an accepted configuration, every relation's template is a non-empty string holding both braces |
| Service.TemplateFor | server/src/services/service.ts:58-62 | a template is found exactly when `relations` is an object with that key; what is found is that entry's own `urlTemplate`, a non-empty string with both braces |
| Service.GenerateUrl | server/src/services/service.ts:50-73 | `""` without a truthy link type or related data, for a type outside `api::`, or for an unconfigured type; otherwise the expansion of the type's template against the related data |
| Service.BuiltInTypesGenerateNothing | server/src/services/service.ts:58 | `url` and `file` values never get a generated URL |
| Service.ConfiguredRelationExpands | server/src/services/service.ts:58-65 | a configured relation with related data gets its configured template expanded |
| Service.ConfiguredRelations | server/src/services/service.ts:88-96 | the keys of a truthy `relations`, and none for a missing or falsy one |
| Service.ConfiguredRelationsAreKeys | server/src/services/service.ts:91 | for an object of relations, the listed types are its keys in order, and a type is listed exactly when it is configured |
| Service.DefaultConfigHasNoRelations | server/src/services/service.ts:88-96 | the default configuration offers no relation types |
| Service.RelationOptionsQuery | server/src/services/service.ts:16-41 | no query for an empty key, a key outside `api::` or an unknown content type; otherwise findMany on that type, filtered on title, name or slug exactly when the search term is non-empty |
| LinkField.DefaultValue | admin/src/components/LinkField.tsx:37-45 | the default value is a `url` link with an empty URL and null related data; it has no request key and the effect leaves it alone |
| LinkField.EffectiveValue | admin/src/components/LinkField.tsx:37-45 | the form's value when there is one; otherwise the default value, which is inert |
| Types.TruthyId | admin/src/components/LinkField.tsx:110 | `value.relatedData?.id` is truthy exactly when related data is set and its id is a non-zero number, and then that number is the id |
| Types.TruthyUrl | admin/src/components/LinkField.tsx:182 | `value.relatedData?.url` is truthy exactly when related data is set and its url is a non-empty string, and then that string is the url |
| LinkField.Changed | admin/src/components/LinkField.tsx:211-229 | an edit sets its own field only; a link-type change also removes the related data, and removes the URL unless the previous type was `url` |
| LinkField.RequestKeyFor | admin/src/components/LinkField.tsx:110-123 | a value has a request key exactly when its type is a relation type and its id is truthy; the key is that type and id |
| LinkField.NewUrl | admin/src/components/LinkField.tsx:137 | `data.generatedUrl \|\| ''`: the generated URL when there is one, and a non-empty result only from a generated URL |
| LinkField.CompletedValue | admin/src/components/LinkField.tsx:133-153 | success writes the generated URL (or `""`) into the captured value when it differs; failure writes `""` when the captured URL was truthy; nothing else is written |
| LinkField.MayStartRequest | admin/src/components/LinkField.tsx:110-125 | a request may start exactly when the value has a request key, none is in flight and the key differs from the recorded one; when it may, the effect's plan is to generate |
| LinkField.UrlEffectPlan | admin/src/components/LinkField.tsx:175-200 | the effect mirrors a file's URL when it differs, asks for generation exactly when a request key exists, clears a leftover URL of a file without one, and otherwise does nothing |
| LinkField.Planned | admin/src/components/LinkField.tsx:182-200 | the effect's write changes only the URL: to the file's URL when mirroring, to `""` when clearing |
| LinkField.IdText | admin/src/components/LinkField.tsx:288 | an option has id text exactly when its id is a number, and that text is the canonical numeral of the id |
| LinkField.ReceivedRelations | admin/src/components/LinkField.tsx:80-87 | the loaded payload's relations when present; none when the payload lacks them or the request failed |
| LinkField.ReceivedOptions | admin/src/components/LinkField.tsx:96-103 | the loaded payload's options when present; none when the payload lacks them or the request failed |
| LinkField.FindOption | admin/src/components/LinkField.tsx:288 | the first option whose id text equals the selected id, or none when no option matches |
| LinkField.OptionsToFetch | admin/src/components/LinkField.tsx:161-173 | options are fetched exactly for a relation type that is among the discovered relations |
| LinkField.LastSegment | admin/src/components/LinkField.tsx:67-69 | the text after the last dot: a dot-free suffix preceded by a dot or the start |
| LinkField.CapitalizeFirst | admin/src/components/LinkField.tsx:71 | only the first character changes, to upper case, unless it is a line terminator |
| LinkField.SpaceBeforeCapitals | admin/src/components/LinkField.tsx:70 | at most one space is inserted per character, and no dot is introduced |
| LinkField.TypeLabel | admin/src/components/LinkField.tsx:66-71 | a label is empty only for the empty key; a key whose last segment is empty is shown whole; any other label holds no dot |
| LinkField.RelationOptions | admin/src/components/LinkField.tsx:64-72 | one menu entry per discovered relation, in order, each with the relation as its value and its label as caption |
| LinkField.LinkTypeOptions | admin/src/components/LinkField.tsx:61-73 | `URL` and `File` first, then every discovered relation in order with its label |
| LinkField.ManualUrlUntouched | admin/src/components/LinkField.tsx:176-200 | the effect never rewrites a value of type `url` or one without a truthy link type |
| LinkField.EffectSettles | admin/src/components/LinkField.tsx:182-200 | a write made by the effect changes the URL only, and the effect then does nothing |
| LinkField.LinkTypeSwitch | admin/src/components/LinkField.tsx:217-224 | after a type change no request can follow; the URL survives exactly when the previous type was `url` or the value had no URL; the effect at most clears it for `file` |
| LinkField.TextAndUrlEditsKeepKey | admin/src/components/LinkField.tsx:120-128 | editing text or URL changes neither the request key nor whether a request may start |
| LinkField.NewRecordRearms | admin/src/components/LinkField.tsx:110-131 | picking a record with a different non-zero id yields a new key that may start a request |
| LinkField.CompletionKeepsKey | admin/src/components/LinkField.tsx:133-143 | a completion's write keeps the key it started with, so it starts no second request |
| LinkField.FailureLeavesNoUrl | admin/src/components/LinkField.tsx:144-150 | after a failed request the URL is falsy |
| LinkField.SuccessSetsUrl | admin/src/components/LinkField.tsx:137-143 | after a successful request the URL is the generated one, or `""` |
| LinkField.FindOptionById | admin/src/components/LinkField.tsx:288 | looking up the text of id n finds an option whose id is n, and finds none exactly when no option has id n |
| LinkField.LastSegmentAfterDot | admin/src/components/LinkField.tsx:67-69 | the last segment of `prefix.segment` is `segment` |
| LinkField.LastSegmentWithoutDot | admin/src/components/LinkField.tsx:67-69 | a key without a dot is its own last segment |
| LinkField.SpaceBeforeCapitalsConcat | admin/src/components/LinkField.tsx:70 | the global replace works piecewise over a concatenation |
| LinkField.NoCapitalsUnspaced | admin/src/components/LinkField.tsx:70 | text without capitals gets no spaces |
| LinkField.SpaceBeforeCapitalsKeepsText | admin/src/components/LinkField.tsx:70 | only spaces are inserted: without spaces the text is unchanged |
| LinkField.CapitalsFollowSpace | admin/src/components/LinkField.tsx:70 | every capital in the output of the space insertion follows a space, and that output never starts with a capital |
| LinkField.SpaceBeforeOneCapital | admin/src/components/LinkField.tsx:70 | a single capital between runs without capitals gets one space in front of it |
| LinkField.BlogPostSpaced | admin/src/components/LinkField.tsx:70 | `blogPost` becomes `blog Post` |
| LinkField.UnspacedConcat | admin/src/components/LinkField.tsx:70 | removing spaces works piecewise over a concatenation |
| LinkField.LabelFromSegment | admin/src/components/LinkField.tsx:66-71 | the label of `prefix.segment` is the segment spaced and capitalised |
| LinkField.LabelWithoutDot | admin/src/components/LinkField.tsx:66-71 | a key without a dot is labelled by itself, spaced and capitalised |
| LinkField.PageLabel | admin/src/components/LinkField.tsx:66-71 | `page` is labelled `Page` |
| LinkField.ArticleSegment | admin/src/components/LinkField.tsx:70-71 | `article` is shown as `Article` |
| LinkField.ArticleLabel | admin/src/components/LinkField.tsx:66-71 | `api::article.article` is labelled `Article` |
| LinkField.BlogPostSegment | admin/src/components/LinkField.tsx:70-71 | `blogPost` is shown as `Blog Post` |
| LinkField.CamelCaseLabel | admin/src/components/LinkField.tsx:66-71 | `api::blog.blogPost` is labelled `Blog Post` |
| LinkField.TrailingDotLabel | admin/src/components/LinkField.tsx:66-71 | `api::page.` is labelled with the whole key |
| LinkField.Component.constructor | admin/src/components/LinkField.tsx:37-58 | the value is the form's value or the default; nothing is loaded, nothing is in flight, no key is recorded |
| LinkField.Component.HandleChange | admin/src/components/LinkField.tsx:211-229 | the form receives the changed value; a link-type change also forgets the recorded key |
| LinkField.Component.HandleCheckboxChange | admin/src/components/LinkField.tsx:245-251 | only `openInNewTab` changes |
| LinkField.Component.OpenMediaLibrary | admin/src/components/LinkField.tsx:241-243 | only the dialog flag is set |
| LinkField.Component.CloseMediaLibrary | admin/src/components/LinkField.tsx:381 | only the dialog flag is cleared |
| LinkField.Component.HandleFileSelect | admin/src/components/LinkField.tsx:231-239 | the first picked file, if any, becomes the related data, and the dialog closes |
| LinkField.Component.SelectRelation | admin/src/components/LinkField.tsx:287-290 | the option found for the selected id, or none, becomes the related data |
| LinkField.Component.StartFetchRelations | admin/src/components/LinkField.tsx:76-79 | discovery starts exactly when it is neither done nor running |
| LinkField.Component.CompleteFetchRelations | admin/src/components/LinkField.tsx:80-90 | the received relations, or none on failure, are stored and discovery is done |
| LinkField.Component.RelationOptionsEffect | admin/src/components/LinkField.tsx:161-173 | the options of a discovered relation type are requested; otherwise the list is emptied |
| LinkField.Component.ReceiveRelationOptions | admin/src/components/LinkField.tsx:94-106 | the received options, or none on failure, replace the list |
| LinkField.Component.StartGenerateUrl | admin/src/components/LinkField.tsx:108-131 | a request starts exactly when the guard allows it; the flag is set and the key is recorded before the value is sent |
| LinkField.Component.CompleteGenerateUrl | admin/src/components/LinkField.tsx:133-153 | the completion's write, built from the captured value, replaces the form's value; the flag clears and the key stays |
| LinkField.Component.UrlEffect | admin/src/components/LinkField.tsx:175-209 | the effect does what its plan says: a write, a guarded request, or nothing, with the matching new state |
| Scenarios.FailedRequestNotRetried | admin/src/components/LinkField.tsx:126-153 | after a failed request the URL is cleared and the next effect starts no new request |
| Scenarios.GeneratedUrlSettles | admin/src/components/LinkField.tsx:133-143 | after a successful request the value holds the generated URL and the next effect starts nothing |
| Scenarios.StaleResponseRevertsSwitch | admin/src/components/LinkField.tsx:133-143 | when a successful response's URL differs from the captured one, a response arriving after a link-type switch restores the link type and related data of the request |
| Scenarios.StaleResponseRevertsEdit | admin/src/components/LinkField.tsx:133-143 | when a successful response's URL differs from the captured one, text typed while the request was pending is lost: the form ends with the captured value and the new URL |
| Scenarios.RevertedSwitchRequestsAgain | admin/src/components/LinkField.tsx:217-224 | after a completion undoes a pending link-type switch, the next effect requests the restored key again, because the switch reset the recorded key |
| Scenarios.FileUrlMirrored | admin/src/components/LinkField.tsx:181-188 | a picked file's URL lands in the value without a server request, and the following effect does nothing |
| Scenarios.NewRecordRequestsAgain | admin/src/components/LinkField.tsx:110-131 | after success, picking another record starts exactly one new request |
| Scenarios.SwitchBackRequestsAgain | admin/src/components/LinkField.tsx:217-224 | switching the type away and back forgets the key, so the same record is requested again |
| Scenarios.RelationsFetchedOnce | admin/src/components/LinkField.tsx:76-91 | relation discovery runs once per mount, and a second start while loading or afterwards does nothing |

## Left out

- Service.GenerateUrl: defined only for configurations the validator accepts. Strapi refuses to start the plugin with any other configuration. The `try`/`catch` that turns a failing template lookup into `""` therefore matters only for a missing or null `relations`, which the model covers.
- Service.TemplateFor: like `GenerateUrl`, defined only for accepted configurations.
- `getPluginConfig`: its read of the configuration store is a parameter, the configuration itself. Its fallback for a store that throws is not modelled.
- `getRelationOptions`:
  - the content-type registry is a set parameter;
  - the host's `findMany` is represented by the query it would receive, not by its results;
  - `entities || []` is not modelled.
- Logging: every `console.error` and the catch-all `try`/`catch` blocks that only log are not modelled.
- `String(value)` is modelled for strings and integers only. Booleans, floating-point numbers, objects and integers beyond 2^53 in a related record are not modelled.
- Template keys that name prototype properties (such as `{constructor}`) are not modelled; a record is a finite map of its own keys.
- `toUpperCase` is modelled on ASCII letters only: a label whose first character is a non-ASCII letter keeps that character unchanged. (`\w` is ASCII-only in JavaScript without the `u` flag, so the token grammar is exact.)
- HTTP transport:
  - the request paths;
  - `encodeURIComponent` of the search term;
  - the `post` body encoding;
  - the controllers, routes and plugin registration.
- React scheduling:
  - effects run when the caller invokes them, not when their dependencies change;
  - `onChange` is the assignment of the class's `value`;
  - `useCallback` memoisation is not modelled.
- Out-of-order relation-option responses are modelled only as "the last response applied wins". The request that a typed search starts is not modelled, because it changes no state.
- Rendering: the JSX, the media-library dialog's content, and the option captions (title, else name, else slug, else the word `Item` followed by the id) are not modelled.

=== FILE: config.dfy ===
/**
 * The plugin configuration and its load-time validator
 * (server/src/config/index.ts). The configuration is plain JavaScript data,
 * so it is modelled as a JSON-like value: the validator must cope with
 * whatever shape the host application wrote.
 */
module PluginConfig {
  import opened Types
  import Decimal

  /**
   * A JavaScript data value. An object lists its own properties in the order
   * `Object.entries` enumerates them. A JavaScript object holds each name at
   * most once; the model does not enforce that, and for a list that repeats a
   * name `Lookup` reads the first occurrence. Inside a container JNull stands
   * for both null and undefined: the code treats them alike.
   */
  datatype Json =
    | JNull
    | JBool(b: bool)
    | JNum(n: int)
    | JStr(s: string)
    | JArr(items: seq<Json>)
    | JObj(fields: seq<(string, Json)>)

  /** The plugin's configuration; `relations` is None when the property is missing. */
  datatype Config = Config(relations: Option<Json>)

  datatype ConfigError =
    | RelationsNotObject
    | EntryIsNull
    | TemplateRequired(contentType: string)
    | PlaceholderRequired(contentType: string)

  datatype Verdict = Accepted | Rejected(error: ConfigError)

  /** The default configuration: an empty object of relations, which the validator accepts. */
  function DefaultConfig(): (c: Config)
    ensures c.relations == Some(JObj([]))
    ensures RelationEntries(c) == []
    ensures Validate(c) == Accepted
  {
    Config(Some(JObj([])))
  }

  predicate IsTruthy(j: Json)
  {
    match j
    case JNull => false
    case JBool(b) => b
    case JNum(n) => n != 0
    case JStr(s) => s != ""
    case _ => true
  }

  /** `typeof j === 'object'` (null is an object to typeof). */
  predicate IsObjectType(j: Json)
  {
    j.JNull? || j.JArr? || j.JObj?
  }

  /** The property names "0", "1", ... of an array or string of length n. */
  function IndexKeys(n: nat): (keys: seq<string>)
    ensures |keys| == n
    ensures forall i :: 0 <= i < n ==> keys[i] == Decimal.NatToDecimal(i)
  {
    seq(n, i requires 0 <= i < n => Decimal.NatToDecimal(i))
  }

  /** The names of a list of fields, in order. */
  function Names(fields: seq<(string, Json)>): (names: seq<string>)
    ensures |names| == |fields| && forall i :: 0 <= i < |names| ==> names[i] == fields[i].0
  {
    if fields == [] then [] else [fields[0].0] + Names(fields[1..])
  }

  /** `Object.keys(j)`; it throws for null, so the callers pass no null. */
  function OwnKeys(j: Json): (keys: seq<string>)
    requires !j.JNull?
    ensures j.JObj? ==> |keys| == |j.fields| && forall i :: 0 <= i < |keys| ==> keys[i] == j.fields[i].0
    ensures j.JArr? ==> keys == IndexKeys(|j.items|)
    ensures j.JStr? ==> keys == IndexKeys(|j.s|)
    ensures j.JNum? || j.JBool? ==> keys == []
  {
    match j
    case JObj(fields) => Names(fields)
    case JArr(items) => IndexKeys(|items|)
    case JStr(s) => IndexKeys(|s|)
    case _ => []
  }

  /** `Object.entries(j)` for an object or an array. */
  function Entries(j: Json): (entries: seq<(string, Json)>)
    requires j.JArr? || j.JObj?
    ensures j.JObj? ==> entries == j.fields
    ensures j.JArr? ==> (|entries| == |j.items| &&
      forall i :: 0 <= i < |entries| ==> entries[i] == (Decimal.NatToDecimal(i), j.items[i]))
  {
    match j
    case JObj(fields) => fields
    case JArr(items) => seq(|items|, i requires 0 <= i < |items| => (Decimal.NatToDecimal(i), items[i]))
  }

  /** The value of the first field called `key`, if there is one. */
  function Lookup(fields: seq<(string, Json)>, key: string): (r: Option<Json>)
    ensures r.Some? <==> exists i :: 0 <= i < |fields| && fields[i].0 == key
    ensures r.Some? ==> exists i :: (0 <= i < |fields| && fields[i] == (key, r.value) &&
      forall j :: 0 <= j < i ==> fields[j].0 != key)
  {
    if fields == [] then None
    else if fields[0].0 == key then Some(fields[0].1)
    else
      var r := Lookup(fields[1..], key);
      assert forall i :: 1 <= i < |fields| ==> fields[i] == fields[1..][i - 1];
      if r.Some? then
        var k :| 0 <= k < |fields[1..]| && fields[1..][k] == (key, r.value) &&
          forall j :: 0 <= j < k ==> fields[1..][j].0 != key;
        assert fields[k + 1] == (key, r.value);
        r
      else r
  }

  /**
   * `j[key]` for a non-null value and a key such as `urlTemplate` that names no
   * index and no built-in property (`length`); None is undefined. Of all values
   * only an object can hold a property with such a name.
   */
  function Property(j: Json, key: string): (r: Option<Json>)
    requires !j.JNull?
    ensures !j.JObj? ==> r.None?
    ensures j.JObj? ==> r == Lookup(j.fields, key)
  {
    if j.JObj? then Lookup(j.fields, key) else None
  }

  /** The check of one relation entry; `contentType` is the entry's key. */
  function EntryVerdict(contentType: string, relationConfig: Json): (v: Verdict)
    ensures v == Rejected(EntryIsNull) <==> relationConfig.JNull?
    ensures v.Accepted? <==>
      && !relationConfig.JNull?
      && (var t := Property(relationConfig, "urlTemplate");
          t.Some? && t.value.JStr? && t.value.s != "" && '{' in t.value.s && '}' in t.value.s)
    ensures v == Rejected(TemplateRequired(contentType)) <==>
      && !relationConfig.JNull?
      && (var t := Property(relationConfig, "urlTemplate");
          !(t.Some? && t.value.JStr? && t.value.s != ""))
    ensures v == Rejected(PlaceholderRequired(contentType)) <==>
      && !relationConfig.JNull?
      && (var t := Property(relationConfig, "urlTemplate");
          t.Some? && t.value.JStr? && t.value.s != "" && ('{' !in t.value.s || '}' !in t.value.s))
    ensures v.Rejected? && v.error.TemplateRequired? ==> v.error.contentType == contentType
    ensures v.Rejected? && v.error.PlaceholderRequired? ==> v.error.contentType == contentType
    ensures v != Rejected(RelationsNotObject)
  {
    if relationConfig.JNull? then
      // reading `urlTemplate` of null throws a TypeError
      Rejected(EntryIsNull)
    else
      match Property(relationConfig, "urlTemplate")
      case Some(JStr(s)) =>
        if s == "" then Rejected(TemplateRequired(contentType))
        else if '{' !in s || '}' !in s then Rejected(PlaceholderRequired(contentType))
        else Accepted
      case _ => Rejected(TemplateRequired(contentType))
  }

  /** The loop over the entries: the verdict of the first entry that fails, or Accepted. */
  function CheckEntries(entries: seq<(string, Json)>): (v: Verdict)
    ensures v.Accepted? <==> forall i :: 0 <= i < |entries| ==> EntryVerdict(entries[i].0, entries[i].1).Accepted?
    ensures v.Rejected? ==> exists i :: (0 <= i < |entries| && EntryVerdict(entries[i].0, entries[i].1) == v &&
      forall j :: 0 <= j < i ==> EntryVerdict(entries[j].0, entries[j].1).Accepted?)
  {
    if entries == [] then Accepted
    else
      var head := EntryVerdict(entries[0].0, entries[0].1);
      if head.Rejected? then head
      else
        var v := CheckEntries(entries[1..]);
        assert forall i :: 1 <= i < |entries| ==> entries[i] == entries[1..][i - 1];
        if v.Rejected? then
          var k :| 0 <= k < |entries[1..]| && EntryVerdict(entries[1..][k].0, entries[1..][k].1) == v &&
            forall j :: 0 <= j < k ==> EntryVerdict(entries[1..][j].0, entries[1..][j].1).Accepted?;
          assert EntryVerdict(entries[k + 1].0, entries[k + 1].1) == v;
          v
        else v
  }

  /**
   * `relations` is present, truthy and not an object: the first check throws.
   * That is the case exactly for `true`, a non-zero number and a non-empty string.
   */
  function RelationsMalformed(config: Config): (m: bool)
    ensures m <==> (config.relations.Some? &&
      (config.relations.value == JBool(true) ||
       (config.relations.value.JNum? && config.relations.value.n != 0) ||
       (config.relations.value.JStr? && config.relations.value.s != "")))
  {
    config.relations.Some? && IsTruthy(config.relations.value) && !IsObjectType(config.relations.value)
  }

  /**
   * `Object.entries(config.relations || {})` once the shape check has passed: no
   * entries for a missing or falsy `relations`, and otherwise one entry per name
   * `Object.keys` lists, in the same order.
   */
  function RelationEntries(config: Config): (entries: seq<(string, Json)>)
    requires !RelationsMalformed(config)
    ensures config.relations.None? || !IsTruthy(config.relations.value) ==> entries == []
    ensures config.relations.Some? && IsTruthy(config.relations.value) ==>
      |entries| == |OwnKeys(config.relations.value)| &&
      forall i :: 0 <= i < |entries| ==> entries[i].0 == OwnKeys(config.relations.value)[i]
    ensures config.relations.Some? && IsTruthy(config.relations.value) ==> entries == Entries(config.relations.value)
  {
    if config.relations.None? || !IsTruthy(config.relations.value) then []
    else Entries(config.relations.value)
  }

  /** `validator(config)`: Accepted when it returns, Rejected with the error it throws. */
  function Validate(config: Config): (v: Verdict)
    ensures v == Rejected(RelationsNotObject) <==> RelationsMalformed(config)
    ensures v.Accepted? <==> (!RelationsMalformed(config) &&
      forall e :: e in RelationEntries(config) ==> EntryVerdict(e.0, e.1).Accepted?)
    ensures v.Rejected? && !RelationsMalformed(config) ==>
      exists i :: (0 <= i < |RelationEntries(config)| &&
        v == EntryVerdict(RelationEntries(config)[i].0, RelationEntries(config)[i].1) &&
        forall j :: 0 <= j < i ==> EntryVerdict(RelationEntries(config)[j].0, RelationEntries(config)[j].1).Accepted?)
  {
    if RelationsMalformed(config) then Rejected(RelationsNotObject)
    else
      var entries := RelationEntries(config);
      var v := CheckEntries(entries);
      assert forall e :: e in entries ==> exists i :: 0 <= i < |entries| && entries[i] == e;
      v
  }

  /** Only the presence of both braces is checked: "}{" and "{}" are accepted templates. */
  lemma BracesInAnyOrderAccepted(contentType: string)
    ensures EntryVerdict(contentType, JObj([("urlTemplate", JStr("}{"))])).Accepted?
    ensures EntryVerdict(contentType, JObj([("urlTemplate", JStr("{}"))])).Accepted?
    ensures EntryVerdict(contentType, JObj([("urlTemplate", JStr("/posts/{slug"))])) == Rejected(PlaceholderRequired(contentType))
  {
    assert '{' in "}{" && '}' in "}{";
    assert '{' in "{}" && '}' in "{}";
    assert '}' !in "/posts/{slug";
  }

  /** A falsy `relations` (null, 0, false, "") is treated as no relations at all. */
  lemma FalsyRelationsAccepted(j: Json)
    requires !IsTruthy(j)
    ensures Validate(Config(Some(j))) == Accepted
  {
  }

  /** When the validator accepts, every relation's template is a non-empty string holding both braces. */
  lemma {:induction false} AcceptedTemplates(config: Config, contentType: string)
    requires Validate(config).Accepted?
    requires config.relations.Some? && config.relations.value.JObj?
    requires Lookup(config.relations.value.fields, contentType).Some?
    ensures var rc := Lookup(config.relations.value.fields, contentType).value;
      && rc.JObj?
      && var t := Lookup(rc.fields, "urlTemplate");
      && t.Some? && t.value.JStr? && t.value.s != "" && '{' in t.value.s && '}' in t.value.s
  {
    var fields := config.relations.value.fields;
    var rc := Lookup(fields, contentType).value;
    var i :| 0 <= i < |fields| && fields[i] == (contentType, rc);
    assert fields[i] in RelationEntries(config);
    assert EntryVerdict(contentType, rc).Accepted?;
  }
}

=== FILE: decimal.dfy ===
/**
 * The decimal text of an integer, as JavaScript's `String(n)` and
 * `n.toString()` produce it for integers in the safe range: an optional
 * minus sign followed by digits without leading zeros.
 */
module Decimal {

  predicate IsDigit(c: char)
  {
    '0' <= c <= '9'
  }

  predicate AllDigits(s: string)
  {
    forall k :: 0 <= k < |s| ==> IsDigit(s[k])
  }

  /** A canonical decimal numeral: digits, no leading zero unless it is "0", optional '-' before a non-zero one. */
  predicate IsNumeral(s: string)
  {
    if |s| > 0 && s[0] == '-' then
      |s| > 1 && AllDigits(s[1..]) && s[1] != '0'
    else
      |s| > 0 && AllDigits(s) && (|s| > 1 ==> s[0] != '0')
  }

  function DigitChar(d: nat): (c: char)
    requires d < 10
    ensures IsDigit(c) && (c as int) - ('0' as int) == d
  {
    (('0' as int) + d) as char
  }

  function DigitValue(c: char): (d: nat)
    requires IsDigit(c)
    ensures d < 10
  {
    (c as int) - ('0' as int)
  }

  function NatToDecimal(n: nat): (s: string)
    ensures |s| > 0 && AllDigits(s)
    ensures |s| > 1 ==> s[0] != '0'
    ensures n > 0 ==> s[0] != '0'
  {
    if n < 10 then [DigitChar(n)] else NatToDecimal(n / 10) + [DigitChar(n % 10)]
  }

  function IntToDecimal(i: int): (s: string)
    ensures IsNumeral(s)
    ensures (i < 0) <==> (s[0] == '-')
  {
    if i < 0 then "-" + NatToDecimal(-i) else NatToDecimal(i)
  }

  /** The number a string of digits denotes (most significant digit first). */
  function DigitsValue(s: string): nat
    requires AllDigits(s)
  {
    if s == [] then 0 else DigitsValue(s[..|s| - 1]) * 10 + DigitValue(s[|s| - 1])
  }

  /** The integer a canonical numeral denotes. */
  function NumeralValue(s: string): int
    requires IsNumeral(s)
  {
    if s[0] == '-' then -(DigitsValue(s[1..]) as int) else DigitsValue(s)
  }

  lemma {:induction false} NatToDecimalRoundTrip(n: nat)
    ensures DigitsValue(NatToDecimal(n)) == n
  {
    var s := NatToDecimal(n);
    if n < 10 {
      assert s[..|s| - 1] == [];
    } else {
      NatToDecimalRoundTrip(n / 10);
      assert s[..|s| - 1] == NatToDecimal(n / 10);
    }
  }

  /** Reading back the text of an integer gives the integer. */
  lemma IntToDecimalRoundTrip(i: int)
    ensures NumeralValue(IntToDecimal(i)) == i
  {
    if i < 0 {
      NatToDecimalRoundTrip(-i);
      assert IntToDecimal(i)[1..] == NatToDecimal(-i);
    } else {
      NatToDecimalRoundTrip(i);
    }
  }

  /** Distinct integers have distinct texts. */
  lemma IntToDecimalInjective(a: int, b: int)
    ensures IntToDecimal(a) == IntToDecimal(b) <==> a == b
  {
    if IntToDecimal(a) == IntToDecimal(b) {
      IntToDecimalRoundTrip(a);
      IntToDecimalRoundTrip(b);
    }
  }
}

=== FILE: link_field.dfy ===
/**
 * The admin-side link field (admin/src/components/LinkField.tsx) with the
 * rendering stripped away. What remains is a small state machine: the link
 * value the form holds, the relation types discovered from the server, the
 * in-flight flag and the dedup key of URL generation. React effects are
 * explicit steps the caller invokes, and every network call is split into
 * a start and a completion that takes the response as a parameter.
 *
 * The pure decisions (what a change produces, what the URL effect should do,
 * whether a generation request may start, what a response turns the value
 * into) are functions; the component is a class whose methods apply them.
 */
module LinkField {
  import opened Types
  import Decimal

  const UrlType := "url"
  const FileType := "file"

  // ---------------------------------------------------------------------------
  // The value

  /** The value the field shows when the form passes none: a manual URL, so it asks for nothing. */
  function DefaultValue(): (v: LinkValue)
    ensures v.linkType == Has(UrlType) && v.url == Has("") && v.relatedData == Null
    ensures RequestKeyFor(v).None?
    ensures UrlEffectPlan(v) == Idle
  {
    LinkValue(Has(false), Has(UrlType), Null, Has(""), Has(""))
  }

  /** `props.value || default`: the form's value when it passes one. */
  function EffectiveValue(props: Option<LinkValue>): (v: LinkValue)
    ensures props.Some? ==> v == props.value
    ensures props.None? ==> v == DefaultValue() && RequestKeyFor(v).None? && UrlEffectPlan(v) == Idle
  {
    if props.Some? then props.value else DefaultValue()
  }

  /** A relation type: a truthy link type other than the two built-in ones. */
  predicate IsRelationType(linkType: Slot<string>)
  {
    Truthy(linkType) && linkType.value != UrlType && linkType.value != FileType
  }

  /** A call of `handleChange(field, fieldValue)` as the form makes it. */
  datatype Edit =
    | EditText(text: string)
    | EditUrl(url: string)
    | EditLinkType(linkType: string)
    | EditRelatedData(relatedData: Option<RelatedData>)  // None: the select found no option (undefined)

  /** The value `handleChange` passes to `onChange`. */
  function Changed(v: LinkValue, e: Edit): (w: LinkValue)
    ensures w.openInNewTab == v.openInNewTab
    ensures w.text == if e.EditText? then Has(e.text) else v.text
    ensures w.linkType == if e.EditLinkType? then Has(e.linkType) else v.linkType
    ensures e.EditLinkType? ==> w.relatedData == Absent
    ensures e.EditRelatedData? ==> w.relatedData == if e.relatedData.Some? then Has(e.relatedData.value) else Absent
    ensures !e.EditLinkType? && !e.EditRelatedData? ==> w.relatedData == v.relatedData
    ensures e.EditUrl? ==> w.url == Has(e.url)
    // the URL is dropped unless the PREVIOUS link type was the manual one
    ensures e.EditLinkType? ==> w.url == if v.linkType == Has(UrlType) then v.url else Absent
    ensures !e.EditUrl? && !e.EditLinkType? ==> w.url == v.url
  {
    match e
    case EditText(t) => v.(text := Has(t))
    case EditUrl(u) => v.(url := Has(u))
    case EditRelatedData(rd) => v.(relatedData := if rd.Some? then Has(rd.value) else Absent)
    case EditLinkType(t) =>
      var cleared := v.(linkType := Has(t), relatedData := Absent);
      if v.linkType != Has(UrlType) then cleared.(url := Absent) else cleared
  }

  // ---------------------------------------------------------------------------
  // URL generation: the dedup key, the guard and the response

  /** What the dedup ref records, `JSON.stringify({ linkType, relatedDataId })`; no key is the empty string. */
  datatype RequestKey = RequestKey(linkType: string, relatedDataId: int)

  /** The key of a value that calls for a generated URL, if it does. */
  function RequestKeyFor(v: LinkValue): (k: Option<RequestKey>)
    ensures k.Some? <==> IsRelationType(v.linkType) && TruthyId(v.relatedData).Some?
    ensures k.Some? ==> k.value == RequestKey(v.linkType.value, TruthyId(v.relatedData).value)
  {
    if IsRelationType(v.linkType) && TruthyId(v.relatedData).Some? then
      Some(RequestKey(v.linkType.value, TruthyId(v.relatedData).value))
    else None
  }

  /**
   * The guard of `generateUrl`: a relation value with a truthy id, nothing in flight, a new key.
   * It passes only for values the URL effect asks a URL for, never while a request is
   * pending, and never for the key already recorded.
   */
  function MayStartRequest(v: LinkValue, generating: bool, lastKey: Option<RequestKey>): (may: bool)
    ensures may ==> UrlEffectPlan(v) == RequestGeneration
    ensures generating ==> !may
    ensures lastKey == RequestKeyFor(v) ==> !may
    ensures may <==> RequestKeyFor(v).Some? && !generating && lastKey != RequestKeyFor(v)
  {
    RequestKeyFor(v).Some? && !generating && lastKey != RequestKeyFor(v)
  }

  /** The response to the generation request: `data.generatedUrl` (None when missing), or a failure. */
  datatype GenerationOutcome = Generated(generatedUrl: Option<string>) | GenerationFailed

  /** `data.generatedUrl || ''`. */
  function NewUrl(generatedUrl: Option<string>): (url: string)
    ensures generatedUrl.Some? ==> url == generatedUrl.value
    ensures url != "" ==> generatedUrl == Some(url)
  {
    if generatedUrl.Some? then generatedUrl.value else ""
  }

  /**
   * The value the completion passes to `onChange`, or None when it calls nothing.
   * It is built from `captured`, the value the request was started with.
   */
  function CompletedValue(captured: LinkValue, outcome: GenerationOutcome): (update: Option<LinkValue>)
    ensures outcome.Generated? ==>
      (update.Some? <==> captured.url != Has(NewUrl(outcome.generatedUrl))) &&
      (update.Some? ==> update.value == captured.(url := Has(NewUrl(outcome.generatedUrl))))
    ensures outcome.GenerationFailed? ==>
      (update.Some? <==> Truthy(captured.url)) &&
      (update.Some? ==> update.value == captured.(url := Has("")))
  {
    match outcome
    case Generated(generatedUrl) =>
      var url := NewUrl(generatedUrl);
      if captured.url != Has(url) then Some(captured.(url := Has(url))) else None
    case GenerationFailed =>
      if Truthy(captured.url) then Some(captured.(url := Has(""))) else None
  }

  // ---------------------------------------------------------------------------
  // The URL effect

  datatype EffectPlan = Idle | MirrorFileUrl(url: string) | ClearUrl | RequestGeneration

  /** What the URL effect does for a value, before the guard of `generateUrl` is consulted. */
  function UrlEffectPlan(v: LinkValue): (p: EffectPlan)
    ensures p.MirrorFileUrl? <==>
      v.linkType == Has(FileType) && TruthyUrl(v.relatedData).Some? && v.url != Has(TruthyUrl(v.relatedData).value)
    ensures p.MirrorFileUrl? ==> p.url == TruthyUrl(v.relatedData).value
    ensures p.ClearUrl? <==> v.linkType == Has(FileType) && TruthyUrl(v.relatedData).None? && Truthy(v.url)
    ensures p.RequestGeneration? <==> RequestKeyFor(v).Some?
  {
    if !Truthy(v.linkType) then Idle
    else if v.linkType.value == FileType && TruthyUrl(v.relatedData).Some? then
      var fileUrl := TruthyUrl(v.relatedData).value;
      if v.url != Has(fileUrl) then MirrorFileUrl(fileUrl) else Idle
    else if IsRelationType(v.linkType) && TruthyId(v.relatedData).Some? then RequestGeneration
    else if v.linkType.value == FileType && TruthyUrl(v.relatedData).None? && Truthy(v.url) then ClearUrl
    else Idle
  }

  /** The value the effect passes to `onChange` for a plan that changes the value. */
  function Planned(v: LinkValue, p: EffectPlan): (w: LinkValue)
    requires p.MirrorFileUrl? || p.ClearUrl?
    ensures w.url == if p.MirrorFileUrl? then Has(p.url) else Has("")
    ensures w == v.(url := w.url)
  {
    if p.MirrorFileUrl? then v.(url := Has(p.url)) else v.(url := Has(""))
  }

  // ---------------------------------------------------------------------------
  // Relation options and the type menu

  /** `opt.id?.toString()`: the decimal text of a numeric id, which reads back as that id. */
  function IdText(option: RelatedData): (r: Option<string>)
    ensures r.Some? <==> Field(option, "id").Num?
    ensures r.Some? ==> Decimal.IsNumeral(r.value) && Decimal.NumeralValue(r.value) == Field(option, "id").n
  {
    match Field(option, "id")
    case Num(n) =>
      Decimal.IntToDecimalRoundTrip(n);
      Some(Decimal.IntToDecimal(n))
    case _ => None
  }

  /** `relationOptions.find((opt) => opt.id?.toString() === selectedId)`. */
  function FindOption(options: seq<RelatedData>, selectedId: string): (r: Option<RelatedData>)
    ensures r.None? <==> forall i :: 0 <= i < |options| ==> IdText(options[i]) != Some(selectedId)
    ensures r.Some? ==> exists i :: (0 <= i < |options| && options[i] == r.value &&
      IdText(options[i]) == Some(selectedId) && forall j :: 0 <= j < i ==> IdText(options[j]) != Some(selectedId))
  {
    if options == [] then None
    else if IdText(options[0]) == Some(selectedId) then Some(options[0])
    else
      var r := FindOption(options[1..], selectedId);
      assert forall i :: 1 <= i < |options| ==> options[i] == options[1..][i - 1];
      if r.Some? then
        var k :| 0 <= k < |options[1..]| && options[1..][k] == r.value &&
          IdText(options[1..][k]) == Some(selectedId) && forall j :: 0 <= j < k ==> IdText(options[1..][j]) != Some(selectedId);
        assert options[k + 1] == r.value;
        r
      else r
  }

  /** The options effect: the relation type whose options to fetch, or None when the list is emptied. */
  function OptionsToFetch(v: LinkValue, relations: seq<string>): (r: Option<string>)
    ensures r.Some? <==> IsRelationType(v.linkType) && v.linkType.value in relations
    ensures r.Some? ==> r == Some(v.linkType.value)
  {
    if IsRelationType(v.linkType) && v.linkType.value in relations then Some(v.linkType.value) else None
  }

  predicate IsAsciiUpper(c: char)
  {
    'A' <= c <= 'Z'
  }

  /** `toUpperCase` on ASCII letters; every other character is left as it is. */
  function ToUpperAscii(c: char): char
  {
    if 'a' <= c <= 'z' then ((c as int) - 32) as char else c
  }

  /** The characters the regular-expression `.` does not match. */
  predicate IsLineTerminator(c: char)
  {
    c == '\n' || c == '\r' || c == '\U{2028}' || c == '\U{2029}'
  }

  /** `s.split('.').pop()`: the text after the last dot. */
  function LastSegment(s: string): (seg: string)
    ensures '.' !in seg
    ensures |seg| <= |s| && s[|s| - |seg|..] == seg
    ensures |seg| < |s| ==> s[|s| - |seg| - 1] == '.'
  {
    if s == [] || s[|s| - 1] == '.' then []
    else
      var init := LastSegment(s[..|s| - 1]);
      assert s[..|s| - 1][|s| - 1 - |init|..] == s[|s| - 1 - |init|..|s| - 1];
      init + [s[|s| - 1]]
  }

  /** `s.replace(/([A-Z])/g, ' $1')`: it inserts at most one space per character and no dot. */
  function SpaceBeforeCapitals(s: string): (r: string)
    ensures |s| <= |r| <= 2 * |s|
    ensures '.' !in s ==> '.' !in r
  {
    if s == [] then []
    else (if IsAsciiUpper(s[0]) then [' ', s[0]] else [s[0]]) + SpaceBeforeCapitals(s[1..])
  }

  /** `s.replace(/^./, (str) => str.toUpperCase())`. */
  function CapitalizeFirst(s: string): (r: string)
    ensures |r| == |s|
    ensures r != [] && !IsLineTerminator(s[0]) ==> r[0] == ToUpperAscii(s[0])
    ensures r != [] && IsLineTerminator(s[0]) ==> r[0] == s[0]
    ensures r != [] ==> r[1..] == s[1..]
  {
    if s != [] && !IsLineTerminator(s[0]) then [ToUpperAscii(s[0])] + s[1..] else s
  }

  /**
   * The menu label of a relation type. It is empty only for the empty key; a key whose
   * last segment is empty is shown as it is, and any other label holds no dot.
   */
  function TypeLabel(relation: string): (r: string)
    ensures r == "" <==> relation == ""
    ensures LastSegment(relation) == "" ==> r == relation
    ensures LastSegment(relation) != "" ==> '.' !in r
  {
    var shown := CapitalizeFirst(SpaceBeforeCapitals(LastSegment(relation)));
    if shown == "" then relation else shown
  }

  datatype TypeOption = TypeOption(value: string, caption: string)

  /** `linkTypes`: the two built-in types, then every relation in order. */
  function LinkTypeOptions(relations: seq<string>): (options: seq<TypeOption>)
    ensures |options| == |relations| + 2
    ensures options[0] == TypeOption(UrlType, "URL") && options[1] == TypeOption(FileType, "File")
    ensures forall i :: 0 <= i < |relations| ==> options[i + 2] == TypeOption(relations[i], TypeLabel(relations[i]))
  {
    var builtIn := [TypeOption(UrlType, "URL"), TypeOption(FileType, "File")];
    var discovered := RelationOptions(relations);
    assert forall i :: 0 <= i < |relations| ==> (builtIn + discovered)[i + 2] == discovered[i];
    builtIn + discovered
  }

  /** One menu entry per relation type, in order. */
  function RelationOptions(relations: seq<string>): (options: seq<TypeOption>)
    ensures |options| == |relations|
    ensures forall i :: 0 <= i < |relations| ==> options[i] == TypeOption(relations[i], TypeLabel(relations[i]))
  {
    if relations == [] then []
    else [TypeOption(relations[0], TypeLabel(relations[0]))] + RelationOptions(relations[1..])
  }

  // ---------------------------------------------------------------------------
  // Properties of the decisions

  /** A manually typed URL, or a value without a link type, is never rewritten by the effect. */
  lemma ManualUrlUntouched(v: LinkValue)
    requires v.linkType == Has(UrlType) || !Truthy(v.linkType)
    ensures UrlEffectPlan(v) == Idle
  {
  }

  /** One write of the effect is enough: for the value it writes, the effect does nothing. */
  lemma EffectSettles(v: LinkValue)
    requires UrlEffectPlan(v).MirrorFileUrl? || UrlEffectPlan(v).ClearUrl?
    ensures UrlEffectPlan(Planned(v, UrlEffectPlan(v))) == Idle
    ensures Planned(v, UrlEffectPlan(v)) == v.(url := Planned(v, UrlEffectPlan(v)).url)
  {
  }

  /**
   * After a link-type change the related data is gone, so no request can follow and
   * the effect at most clears a URL left over from the manual type. The URL survives
   * exactly when the previous type was the manual one.
   */
  lemma LinkTypeSwitch(v: LinkValue, t: string)
    ensures var w := Changed(v, EditLinkType(t));
      && w.linkType == Has(t) && w.relatedData == Absent
      && (w.url == v.url <==> v.linkType == Has(UrlType) || v.url == Absent)
      && RequestKeyFor(w).None?
      && UrlEffectPlan(w) == if t == FileType && Truthy(w.url) then ClearUrl else Idle
  {
  }

  /** Editing the text or the URL leaves the request key as it was, so it starts no request. */
  lemma TextAndUrlEditsKeepKey(v: LinkValue, e: Edit, generating: bool, lastKey: Option<RequestKey>)
    requires e.EditText? || e.EditUrl?
    ensures RequestKeyFor(Changed(v, e)) == RequestKeyFor(v)
    ensures MayStartRequest(Changed(v, e), generating, lastKey) == MayStartRequest(v, generating, lastKey)
  {
  }

  /** Picking a record with a different id, with nothing in flight, starts a request. */
  lemma NewRecordRearms(v: LinkValue, rd: RelatedData, oldId: int)
    requires IsRelationType(v.linkType)
    requires Field(rd, "id").Num? && Field(rd, "id").n != 0 && Field(rd, "id").n != oldId
    ensures var w := Changed(v, EditRelatedData(Some(rd)));
      && RequestKeyFor(w) == Some(RequestKey(v.linkType.value, Field(rd, "id").n))
      && MayStartRequest(w, false, Some(RequestKey(v.linkType.value, oldId)))
  {
  }

  /**
   * The value a completion writes keeps the linkType and id it was started with,
   * so with the key recorded it starts no second request.
   */
  lemma CompletionKeepsKey(captured: LinkValue, outcome: GenerationOutcome, generating: bool)
    requires RequestKeyFor(captured).Some?
    ensures var update := CompletedValue(captured, outcome);
      update.Some? ==> (RequestKeyFor(update.value) == RequestKeyFor(captured) &&
        UrlEffectPlan(update.value) == RequestGeneration &&
        !MayStartRequest(update.value, generating, RequestKeyFor(captured)))
  {
  }

  /** After a failed request the field's URL is empty, whether or not it had to be written. */
  lemma FailureLeavesNoUrl(captured: LinkValue)
    ensures var update := CompletedValue(captured, GenerationFailed);
      !Truthy(if update.Some? then update.value.url else captured.url)
  {
  }

  /** After a successful request the field's URL is the generated one, or "" when none came back. */
  lemma SuccessSetsUrl(captured: LinkValue, generatedUrl: Option<string>)
    ensures var update := CompletedValue(captured, Generated(generatedUrl));
      (if update.Some? then update.value.url else captured.url) == Has(NewUrl(generatedUrl))
  {
  }

  /** The select finds an option by the decimal text of its numeric id, and only such an option. */
  lemma {:induction false} FindOptionById(options: seq<RelatedData>, n: int)
    ensures var r := FindOption(options, Decimal.IntToDecimal(n));
      && (r.Some? ==> r.value in options && Field(r.value, "id") == Num(n))
      && (r.None? <==> forall i :: 0 <= i < |options| ==> Field(options[i], "id") != Num(n))
  {
    var text := Decimal.IntToDecimal(n);
    forall o: RelatedData
      ensures IdText(o) == Some(text) <==> Field(o, "id") == Num(n)
    {
      if Field(o, "id").Num? {
        Decimal.IntToDecimalInjective(Field(o, "id").n, n);
      }
    }
  }

  /** The text after the last dot of `prefix.segment` is `segment`. */
  lemma {:induction false} LastSegmentAfterDot(prefix: string, segment: string)
    requires '.' !in segment
    ensures LastSegment(prefix + "." + segment) == segment
    decreases |segment|
  {
    var s := prefix + "." + segment;
    if segment == [] {
      assert s[|s| - 1] == '.';
    } else {
      var init := segment[..|segment| - 1];
      assert '.' !in init by {
        forall k | 0 <= k < |init| ensures init[k] != '.' {
          assert init[k] == segment[k];
        }
      }
      assert s[..|s| - 1] == prefix + "." + init;
      assert s[|s| - 1] == segment[|segment| - 1];
      LastSegmentAfterDot(prefix, init);
      assert init + [segment[|segment| - 1]] == segment;
    }
  }

  /** A key without a dot is its own last segment. */
  lemma {:induction false} LastSegmentWithoutDot(s: string)
    requires '.' !in s
    ensures LastSegment(s) == s
  {
    var seg := LastSegment(s);
    if |seg| < |s| {
      assert false;
    }
  }

  /** The characters of `s` other than spaces, in order. */
  function Unspaced(s: string): string
  {
    if s == [] then [] else (if s[0] == ' ' then [] else [s[0]]) + Unspaced(s[1..])
  }

  lemma {:induction false} UnspacedConcat(a: string, b: string)
    ensures Unspaced(a + b) == Unspaced(a) + Unspaced(b)
    decreases |a|
  {
    if a != [] {
      assert (a + b)[1..] == a[1..] + b;
      UnspacedConcat(a[1..], b);
    } else {
      assert a + b == b;
    }
  }

  /** Inserting the spaces adds spaces only: without them the text is the same. */
  lemma {:induction false} SpaceBeforeCapitalsKeepsText(s: string)
    ensures Unspaced(SpaceBeforeCapitals(s)) == Unspaced(s)
    decreases |s|
  {
    if s != [] {
      var head := if IsAsciiUpper(s[0]) then [' ', s[0]] else [s[0]];
      SpaceBeforeCapitalsKeepsText(s[1..]);
      UnspacedConcat(head, SpaceBeforeCapitals(s[1..]));
      UnspacedConcat([s[0]], s[1..]);
      assert [s[0]] + s[1..] == s;
      if IsAsciiUpper(s[0]) {
        assert head == [' '] + [s[0]];
        UnspacedConcat([' '], [s[0]]);
      }
    }
  }

  /** Every capital in the result follows a space, so the result never starts with one. */
  lemma {:induction false} CapitalsFollowSpace(s: string)
    ensures var r := SpaceBeforeCapitals(s);
      && (forall k :: 0 < k < |r| && IsAsciiUpper(r[k]) ==> r[k - 1] == ' ')
      && (|r| > 0 ==> !IsAsciiUpper(r[0]))
    decreases |s|
  {
    if s != [] {
      var head := if IsAsciiUpper(s[0]) then [' ', s[0]] else [s[0]];
      var tail := SpaceBeforeCapitals(s[1..]);
      CapitalsFollowSpace(s[1..]);
      var r := head + tail;
      assert SpaceBeforeCapitals(s) == r;
      forall k | 0 < k < |r| && IsAsciiUpper(r[k]) ensures r[k - 1] == ' ' {
        if k >= |head| {
          assert r[k] == tail[k - |head|];
          if k > |head| {
            assert r[k - 1] == tail[k - 1 - |head|];
          }
        }
      }
    }
  }

  lemma {:induction false} SpaceBeforeCapitalsConcat(a: string, b: string)
    ensures SpaceBeforeCapitals(a + b) == SpaceBeforeCapitals(a) + SpaceBeforeCapitals(b)
    decreases |a|
  {
    if a != [] {
      var head := if IsAsciiUpper(a[0]) then [' ', a[0]] else [a[0]];
      assert (a + b)[0] == a[0];
      assert (a + b)[1..] == a[1..] + b;
      assert SpaceBeforeCapitals(a + b) == head + SpaceBeforeCapitals(a[1..] + b);
      SpaceBeforeCapitalsConcat(a[1..], b);
      assert SpaceBeforeCapitals(a) == head + SpaceBeforeCapitals(a[1..]);
    } else {
      assert a + b == b;
    }
  }

  /** Text without capitals gets no spaces. */
  lemma {:induction false} NoCapitalsUnspaced(s: string)
    requires forall k :: 0 <= k < |s| ==> !IsAsciiUpper(s[k])
    ensures SpaceBeforeCapitals(s) == s
    decreases |s|
  {
    if s != [] {
      NoCapitalsUnspaced(s[1..]);
      assert [s[0]] + s[1..] == s;
    }
  }

  /** The label of `prefix.segment` for a non-empty segment is the segment, spaced and capitalised. */
  lemma LabelFromSegment(key: string, prefix: string, segment: string, shown: string)
    requires key == prefix + "." + segment
    requires '.' !in segment && segment != []
    requires CapitalizeFirst(SpaceBeforeCapitals(segment)) == shown
    ensures TypeLabel(key) == shown
  {
    LastSegmentAfterDot(prefix, segment);
  }

  /** A key without a dot, such as "page", is labelled by itself, spaced and capitalised. */
  lemma LabelWithoutDot(key: string, shown: string)
    requires '.' !in key && key != []
    requires CapitalizeFirst(SpaceBeforeCapitals(key)) == shown
    ensures TypeLabel(key) == shown
  {
    LastSegmentWithoutDot(key);
  }

  /** "page" is labelled "Page". */
  lemma PageLabel()
    ensures TypeLabel("page") == "Page"
  {
    NoCapitalsUnspaced("page");
    assert ToUpperAscii('p') == 'P';
    assert CapitalizeFirst("page") == ['P'] + "age";
    assert '.' !in "page";
    LabelWithoutDot("page", "Page");
  }

  lemma ArticleSegment()
    ensures CapitalizeFirst(SpaceBeforeCapitals("article")) == "Article"
  {
    NoCapitalsUnspaced("article");
    assert ToUpperAscii('a') == 'A';
    assert CapitalizeFirst("article") == ['A'] + "rticle";
  }

  /** "api::article.article" is labelled "Article". */
  lemma ArticleLabel()
    ensures TypeLabel("api::article.article") == "Article"
  {
    assert "api::article.article" == "api::article" + "." + "article";
    assert '.' !in "article";
    ArticleSegment();
    LabelFromSegment("api::article.article", "api::article", "article", "Article");
  }

  /** One capital between two runs without capitals gets a space in front of it. */
  lemma SpaceBeforeOneCapital(a: string, c: char, b: string)
    requires forall k :: 0 <= k < |a| ==> !IsAsciiUpper(a[k])
    requires forall k :: 0 <= k < |b| ==> !IsAsciiUpper(b[k])
    requires IsAsciiUpper(c)
    ensures SpaceBeforeCapitals(a + ([c] + b)) == a + ([' ', c] + b)
  {
    SpaceBeforeCapitalsConcat(a, [c] + b);
    SpaceBeforeCapitalsConcat([c], b);
    NoCapitalsUnspaced(a);
    NoCapitalsUnspaced(b);
    assert SpaceBeforeCapitals([c]) == [' ', c] by {
      assert [c][1..] == [];
    }
  }

  lemma BlogPostSpaced()
    ensures SpaceBeforeCapitals("blogPost") == "blog Post"
  {
    var a, b := "blog", "ost";
    assert "blogPost" == a + (['P'] + b);
    assert "blog Post" == a + ([' ', 'P'] + b);
    SpaceBeforeOneCapital(a, 'P', b);
  }

  lemma BlogPostSegment()
    ensures CapitalizeFirst(SpaceBeforeCapitals("blogPost")) == "Blog Post"
  {
    BlogPostSpaced();
    assert ToUpperAscii('b') == 'B';
    assert CapitalizeFirst("blog Post") == ['B'] + "log Post";
  }

  /** "api::blog.blogPost" is labelled "Blog Post". */
  lemma CamelCaseLabel()
    ensures TypeLabel("api::blog.blogPost") == "Blog Post"
  {
    assert "api::blog.blogPost" == "api::blog" + "." + "blogPost";
    assert '.' !in "blogPost";
    BlogPostSegment();
    LabelFromSegment("api::blog.blogPost", "api::blog", "blogPost", "Blog Post");
  }

  /** A key ending in a dot has an empty last segment and is shown as it is. */
  lemma TrailingDotLabel()
    ensures TypeLabel("api::page.") == "api::page."
  {
    assert "api::page." == "api::page" + "." + "";
    LastSegmentAfterDot("api::page", "");
  }

  // ---------------------------------------------------------------------------
  // The component

  /** The response to `GET /link-field/relations`: `data.relations` (None when missing), or a failure. */
  datatype RelationsResponse = RelationsLoaded(relations: Option<seq<string>>) | RelationsFailed

  /** The response to a relation-options request: `data.options` (None when missing), or a failure. */
  datatype OptionsResponse = OptionsLoaded(options: Option<seq<RelatedData>>) | OptionsFailed

  /** `data.relations || []`, and [] on failure. */
  function ReceivedRelations(response: RelationsResponse): (r: seq<string>)
    ensures response.RelationsLoaded? && response.relations.Some? ==> r == response.relations.value
    ensures response.RelationsFailed? || response.relations.None? ==> r == []
  {
    if response.RelationsLoaded? && response.relations.Some? then response.relations.value else []
  }

  /** `data.options || []`, and [] on failure. */
  function ReceivedOptions(response: OptionsResponse): (r: seq<RelatedData>)
    ensures response.OptionsLoaded? && response.options.Some? ==> r == response.options.value
    ensures response.OptionsFailed? || response.options.None? ==> r == []
  {
    if response.OptionsLoaded? && response.options.Some? then response.options.value else []
  }

  /** What one run of the URL effect did. */
  datatype EffectStep = NoOp | SetValue(value: LinkValue) | StartRequest(fieldData: LinkValue)

  /** Everything a component instance holds, as one value. */
  datatype ComponentState = ComponentState(
    value: LinkValue,
    relations: seq<string>,
    relationOptions: seq<RelatedData>,
    isInitialized: bool,
    isLoadingRelations: bool,
    showMediaLibrary: bool,
    isGeneratingUrl: bool,
    lastGeneratedKey: Option<RequestKey>,
    inFlight: Option<LinkValue>)

  /**
   * One mounted link field. `value` is the value the form holds: whatever the
   * component passes to `onChange` becomes the next `value`. `inFlight` is the
   * value the pending generation request was started with (its closure).
   */
  class Component {
    var value: LinkValue
    var relations: seq<string>
    var relationOptions: seq<RelatedData>
    var isInitialized: bool
    var isLoadingRelations: bool
    var showMediaLibrary: bool
    var isGeneratingUrl: bool                 // isGeneratingUrlRef
    var lastGeneratedKey: Option<RequestKey>  // lastGeneratedValueRef
    var inFlight: Option<LinkValue>

    ghost function State(): ComponentState
      reads this
    {
      ComponentState(value, relations, relationOptions, isInitialized, isLoadingRelations,
        showMediaLibrary, isGeneratingUrl, lastGeneratedKey, inFlight)
    }

    /**
     * The flag is set exactly while a request is pending; the recorded key is that
     * request's key unless a link-type change has reset it; relation discovery is
     * never both loading and done.
     */
    ghost predicate Valid()
      reads this
    {
      && (isGeneratingUrl <==> inFlight.Some?)
      && (inFlight.Some? ==> RequestKeyFor(inFlight.value).Some? &&
                             (lastGeneratedKey.None? || lastGeneratedKey == RequestKeyFor(inFlight.value)))
      && !(isInitialized && isLoadingRelations)
    }

    constructor (props: Option<LinkValue>)
      ensures Valid()
      ensures State() == ComponentState(EffectiveValue(props), [], [], false, false, false, false, None, None)
    {
      value := EffectiveValue(props);
      relations, relationOptions := [], [];
      isInitialized, isLoadingRelations, showMediaLibrary := false, false, false;
      isGeneratingUrl, lastGeneratedKey, inFlight := false, None, None;
    }

    /** `handleChange`: pass the changed value on; a link-type change also resets the dedup key. */
    method HandleChange(e: Edit)
      requires Valid()
      modifies this
      ensures Valid()
      ensures State() == old(State()).(value := Changed(old(value), e),
        lastGeneratedKey := if e.EditLinkType? then None else old(lastGeneratedKey))
    {
      value := Changed(value, e);
      if e.EditLinkType? {
        lastGeneratedKey := None;
      }
    }

    /** `handleCheckboxChange`. */
    method HandleCheckboxChange(checked: bool)
      requires Valid()
      modifies this
      ensures Valid()
      ensures State() == old(State()).(value := old(value).(openInNewTab := Has(checked)))
    {
      value := value.(openInNewTab := Has(checked));
    }

    /** `openMediaLibrary`. */
    method OpenMediaLibrary()
      requires Valid()
      modifies this
      ensures Valid()
      ensures State() == old(State()).(showMediaLibrary := true)
    {
      showMediaLibrary := true;
    }

    /** The media dialog's `onClose`: only the dialog flag is cleared. */
    method CloseMediaLibrary()
      requires Valid()
      modifies this
      ensures Valid()
      ensures State() == old(State()).(showMediaLibrary := false)
    {
      showMediaLibrary := false;
    }

    /** `handleFileSelect`: the first picked file becomes the related data; the dialog closes. */
    method HandleFileSelect(files: seq<RelatedData>)
      requires Valid()
      modifies this
      ensures Valid()
      ensures State() == old(State()).(
        value := if |files| > 0 then Changed(old(value), EditRelatedData(Some(files[0]))) else old(value),
        showMediaLibrary := false)
    {
      if |files| > 0 {
        HandleChange(EditRelatedData(Some(files[0])));
      }
      showMediaLibrary := false;
    }

    /** The relation select's `onChange`: the option with that id (or undefined) becomes the related data. */
    method SelectRelation(selectedId: string)
      requires Valid()
      modifies this
      ensures Valid()
      ensures State() == old(State()).(value := Changed(old(value), EditRelatedData(FindOption(old(relationOptions), selectedId))))
    {
      HandleChange(EditRelatedData(FindOption(relationOptions, selectedId)));
    }

    /** `fetchRelations` up to the request: it starts only if discovery is neither done nor running. */
    method StartFetchRelations() returns (started: bool)
      requires Valid()
      modifies this
      ensures Valid()
      ensures started <==> !old(isInitialized) && !old(isLoadingRelations)
      ensures State() == if started then old(State()).(isLoadingRelations := true) else old(State())
    {
      if isInitialized || isLoadingRelations {
        return false;
      }
      isLoadingRelations := true;
      return true;
    }

    /** `fetchRelations` after the response: success or failure, discovery is done. */
    method CompleteFetchRelations(response: RelationsResponse)
      requires Valid() && isLoadingRelations
      modifies this
      ensures Valid()
      ensures State() == old(State()).(relations := ReceivedRelations(response),
        isInitialized := true, isLoadingRelations := false)
    {
      relations := ReceivedRelations(response);
      isInitialized := true;
      isLoadingRelations := false;
    }

    /** The options effect: fetch the options of the current relation type, or empty the list. */
    method RelationOptionsEffect() returns (fetch: Option<string>)
      requires Valid()
      modifies this
      ensures Valid()
      ensures fetch == OptionsToFetch(old(value), old(relations))
      ensures State() == if fetch.Some? then old(State()) else old(State()).(relationOptions := [])
    {
      fetch := OptionsToFetch(value, relations);
      if fetch.None? {
        relationOptions := [];
      }
    }

    /** `fetchRelationOptions` after the response: the last response to arrive wins. */
    method ReceiveRelationOptions(response: OptionsResponse)
      requires Valid()
      modifies this
      ensures Valid()
      ensures State() == old(State()).(relationOptions := ReceivedOptions(response))
    {
      relationOptions := ReceivedOptions(response);
    }

    /** `generateUrl` up to the request: on a new key the key is recorded before the value is sent. */
    method StartGenerateUrl() returns (request: Option<LinkValue>)
      requires Valid()
      modifies this
      ensures Valid()
      ensures request.Some? <==> MayStartRequest(old(value), old(isGeneratingUrl), old(lastGeneratedKey))
      ensures request.Some? ==> (request.value == old(value) &&
        State() == old(State()).(isGeneratingUrl := true, lastGeneratedKey := RequestKeyFor(old(value)),
          inFlight := Some(old(value))))
      ensures request.None? ==> State() == old(State())
    {
      if !MayStartRequest(value, isGeneratingUrl, lastGeneratedKey) {
        return None;
      }
      isGeneratingUrl := true;
      lastGeneratedKey := RequestKeyFor(value);
      inFlight := Some(value);
      return Some(value);
    }

    /**
     * `generateUrl` after the response. The new value is built from the value the
     * request was started with, whatever happened meanwhile; the flag is cleared
     * and the recorded key stays.
     */
    method CompleteGenerateUrl(outcome: GenerationOutcome)
      requires Valid() && isGeneratingUrl
      modifies this
      ensures Valid()
      ensures State() == old(State()).(
        value := match CompletedValue(old(inFlight).value, outcome)
                 case Some(w) => w
                 case None => old(value),
        isGeneratingUrl := false,
        inFlight := None)
    {
      var update := CompletedValue(inFlight.value, outcome);
      if update.Some? {
        value := update.value;
      }
      isGeneratingUrl := false;
      inFlight := None;
    }

    /** One run of the URL effect. */
    method UrlEffect() returns (step: EffectStep)
      requires Valid()
      modifies this
      ensures Valid()
      ensures UrlEffectPlan(old(value)).Idle? ==> step == NoOp && State() == old(State())
      ensures UrlEffectPlan(old(value)).MirrorFileUrl? || UrlEffectPlan(old(value)).ClearUrl? ==>
        step == SetValue(Planned(old(value), UrlEffectPlan(old(value)))) &&
        State() == old(State()).(value := step.value)
      ensures UrlEffectPlan(old(value)).RequestGeneration? ==>
        (step.StartRequest? <==> MayStartRequest(old(value), old(isGeneratingUrl), old(lastGeneratedKey))) &&
        (step.StartRequest? ==> (step.fieldData == old(value) &&
          State() == old(State()).(isGeneratingUrl := true, lastGeneratedKey := RequestKeyFor(old(value)),
            inFlight := Some(old(value))))) &&
        (!step.StartRequest? ==> step == NoOp && State() == old(State()))
    {
      var plan := UrlEffectPlan(value);
      match plan
      case Idle =>
        step := NoOp;
      case RequestGeneration =>
        var request := StartGenerateUrl();
        step := if request.Some? then StartRequest(request.value) else NoOp;
      case _ =>
        value := Planned(value, plan);
        step := SetValue(value);
    }
  }
}

=== FILE: scenarios.dfy ===
/**
 * Event sequences on one link field, each from mounting to a final state.
 * Every scenario is a method that drives a fresh `Component` and states what
 * the effects emitted and what value the form ends up holding.
 */
module Scenarios {
  import opened Types
  import opened LinkField

  /**
   * A failed generation is not retried: the key was recorded before the request,
   * so the effect that runs after the failure finds the same key and does nothing.
   */
  method FailedRequestNotRetried(v: LinkValue) returns (first: EffectStep, second: EffectStep, final: LinkValue)
    requires RequestKeyFor(v).Some?
    ensures first == StartRequest(v)
    ensures second == NoOp
    ensures final == if Truthy(v.url) then v.(url := Has("")) else v
  {
    var c := new Component(Some(v));
    first := c.UrlEffect();
    c.CompleteGenerateUrl(GenerationFailed);
    second := c.UrlEffect();
    final := c.value;
  }

  /** The value of a successful generation settles: the effect that follows starts nothing. */
  method GeneratedUrlSettles(v: LinkValue, url: string) returns (first: EffectStep, second: EffectStep, final: LinkValue)
    requires RequestKeyFor(v).Some?
    ensures first == StartRequest(v)
    ensures second == NoOp
    ensures final == v.(url := Has(url))
  {
    var c := new Component(Some(v));
    first := c.UrlEffect();
    c.CompleteGenerateUrl(Generated(Some(url)));
    second := c.UrlEffect();
    final := c.value;
  }

  /**
   * A response is applied to the value its request started from: a link-type switch
   * made while the request was pending is undone when the response arrives.
   */
  method StaleResponseRevertsSwitch(v: LinkValue, t: string, url: string)
    returns (switched: LinkValue, final: LinkValue)
    requires RequestKeyFor(v).Some?
    requires v.url != Has(url)
    ensures switched.linkType == Has(t) && switched.relatedData == Absent
    ensures final == v.(url := Has(url))
    ensures final.linkType == v.linkType && final.relatedData == v.relatedData
  {
    var c := new Component(Some(v));
    var step := c.UrlEffect();
    c.HandleChange(EditLinkType(t));
    switched := c.value;
    c.CompleteGenerateUrl(Generated(Some(url)));
    final := c.value;
  }

  /**
   * Every edit made while a request is pending is undone by a completion that writes,
   * not only a link-type switch: here the text typed in the meantime is lost.
   */
  method StaleResponseRevertsEdit(v: LinkValue, text: string, url: string)
    returns (edited: LinkValue, final: LinkValue)
    requires RequestKeyFor(v).Some?
    requires v.url != Has(url)
    ensures edited == v.(text := Has(text))
    ensures final == v.(url := Has(url))
  {
    var c := new Component(Some(v));
    var step := c.UrlEffect();
    c.HandleChange(EditText(text));
    edited := c.value;
    c.CompleteGenerateUrl(Generated(Some(url)));
    final := c.value;
  }

  /**
   * The switch made while the request was pending forgot the recorded key, so once the
   * completion has restored the old link type the next effect requests the same key again.
   */
  method RevertedSwitchRequestsAgain(v: LinkValue, t: string, url: string)
    returns (first: EffectStep, final: LinkValue, next: EffectStep)
    requires RequestKeyFor(v).Some?
    requires v.url != Has(url)
    ensures first == StartRequest(v)
    ensures final == v.(url := Has(url))
    ensures next == StartRequest(final) && RequestKeyFor(final) == RequestKeyFor(v)
  {
    var c := new Component(Some(v));
    first := c.UrlEffect();
    c.HandleChange(EditLinkType(t));
    c.CompleteGenerateUrl(Generated(Some(url)));
    final := c.value;
    next := c.UrlEffect();
  }

  /**
   * Picking a file copies its URL into the value in one write and never asks the
   * server; the effect that follows the write does nothing.
   */
  method FileUrlMirrored(v: LinkValue, file: RelatedData) returns (first: EffectStep, second: EffectStep, final: LinkValue)
    requires v.linkType == Has(FileType)
    requires Field(file, "url").Str? && Field(file, "url").s != ""
    ensures !first.StartRequest? && second == NoOp
    ensures final == v.(relatedData := Has(file), url := Has(Field(file, "url").s))
  {
    var c := new Component(Some(v));
    c.HandleFileSelect([file]);
    first := c.UrlEffect();
    second := c.UrlEffect();
    final := c.value;
  }

  /** Picking another record after a successful generation asks for a URL again, once. */
  method NewRecordRequestsAgain(v: LinkValue, url: string, rd: RelatedData)
    returns (first: EffectStep, second: EffectStep, third: EffectStep)
    requires RequestKeyFor(v).Some?
    requires Field(rd, "id").Num? && Field(rd, "id").n != 0 && Field(rd, "id") != Field(v.relatedData.value, "id")
    ensures first == StartRequest(v)
    ensures second == StartRequest(v.(url := Has(url), relatedData := Has(rd)))
    ensures third == NoOp
  {
    var c := new Component(Some(v));
    first := c.UrlEffect();
    c.CompleteGenerateUrl(Generated(Some(url)));
    c.HandleChange(EditRelatedData(Some(rd)));
    second := c.UrlEffect();
    third := c.UrlEffect();
  }

  /**
   * Switching the link type away and back forgets the recorded key, so picking the
   * same record again asks for its URL again.
   */
  method SwitchBackRequestsAgain(v: LinkValue, url: string, other: string)
    returns (first: EffectStep, again: EffectStep)
    requires RequestKeyFor(v).Some?
    ensures first == StartRequest(v)
    ensures again.StartRequest? && RequestKeyFor(again.fieldData) == RequestKeyFor(v)
  {
    var c := new Component(Some(v));
    first := c.UrlEffect();
    c.CompleteGenerateUrl(Generated(Some(url)));
    c.HandleChange(EditLinkType(other));
    c.HandleChange(EditLinkType(v.linkType.value));
    c.HandleChange(EditRelatedData(Some(v.relatedData.value)));
    again := c.UrlEffect();
  }

  /** Relation types are fetched once per mount, whatever the response. */
  method RelationsFetchedOnce(props: Option<LinkValue>, response: RelationsResponse)
    returns (first: bool, whileLoading: bool, afterwards: bool, relations: seq<string>)
    ensures first && !whileLoading && !afterwards
    ensures relations == ReceivedRelations(response)
  {
    var c := new Component(props);
    first := c.StartFetchRelations();
    whileLoading := c.StartFetchRelations();
    c.CompleteFetchRelations(response);
    afterwards := c.StartFetchRelations();
    relations := c.relations;
  }
}

=== FILE: service.dfy ===
/**
 * The plugin's server-side service (server/src/services/service.ts): URL
 * generation for a link value, the list of configured relation types, and
 * the guard and filter of the relation-options query. The plugin
 * configuration and the host's set of known content types are parameters;
 * the query itself belongs to the host.
 */
module Service {
  import opened Types
  import opened PluginConfig
  import opened UrlTemplate

  /** Only content-type identifiers of the application carry this prefix. */
  const RelationPrefix := "api::"

  /** `config.relations[linkType]?.urlTemplate` when it is truthy. */
  function TemplateFor(config: Config, linkType: string): (r: Option<string>)
    requires Validate(config).Accepted?
    ensures r.Some? ==> r.value != "" && '{' in r.value && '}' in r.value
    ensures r.Some? <==> (config.relations.Some? && config.relations.value.JObj? &&
      Lookup(config.relations.value.fields, linkType).Some?)
    ensures r.Some? ==> (config.relations.value.JObj? &&
      var rc := Lookup(config.relations.value.fields, linkType).value;
      rc.JObj? && Lookup(rc.fields, "urlTemplate") == Some(JStr(r.value)))
  {
    match config.relations
    case Some(JObj(fields)) =>
      (match Lookup(fields, linkType)
       case Some(rc) =>
         AcceptedTemplates(config, linkType);
         Some(Lookup(rc.fields, "urlTemplate").value.s)
       case None => None)
    // a missing or null `relations` makes the lookup throw, which the catch turns into ""; any
    // other value of an accepted configuration has no property named like a content type
    case _ => None
  }

  /**
   * `generateUrl(fieldData)`. Strapi refuses to start when the validator throws, so the
   * service only ever reads a configuration the validator accepted.
   */
  function GenerateUrl(fieldData: LinkValue, config: Config): (url: string)
    requires Validate(config).Accepted?
    ensures !Truthy(fieldData.linkType) || !fieldData.relatedData.Has? ==> url == ""
    ensures Truthy(fieldData.linkType) && !StartsWith(fieldData.linkType.value, RelationPrefix) ==> url == ""
    ensures Truthy(fieldData.linkType) && TemplateFor(config, fieldData.linkType.value).None? ==> url == ""
    ensures (Truthy(fieldData.linkType) && fieldData.relatedData.Has? && StartsWith(fieldData.linkType.value, RelationPrefix) &&
      TemplateFor(config, fieldData.linkType.value).Some?) ==>
      url == ProcessUrlTemplate(TemplateFor(config, fieldData.linkType.value).value, fieldData.relatedData.value)
  {
    if !Truthy(fieldData.linkType) || !fieldData.relatedData.Has? then ""
    else
      var linkType := fieldData.linkType.value;
      if StartsWith(linkType, RelationPrefix) then
        match TemplateFor(config, linkType)
        case Some(template) => ProcessUrlTemplate(template, fieldData.relatedData.value)
        case None => ""
      else ""
  }

  /** The built-in types never get a generated URL. */
  lemma BuiltInTypesGenerateNothing(fieldData: LinkValue, config: Config)
    requires Validate(config).Accepted?
    requires fieldData.linkType == Has("url") || fieldData.linkType == Has("file")
    ensures GenerateUrl(fieldData, config) == ""
  {
    assert !StartsWith("url", RelationPrefix);
    assert !StartsWith("file", RelationPrefix);
  }

  /** A configured relation with related data gets its template expanded against that data. */
  lemma ConfiguredRelationExpands(fieldData: LinkValue, config: Config, fields: seq<(string, Json)>)
    requires Validate(config).Accepted?
    requires config.relations == Some(JObj(fields))
    requires fieldData.linkType.Has? && StartsWith(fieldData.linkType.value, RelationPrefix)
    requires fieldData.relatedData.Has?
    requires Lookup(fields, fieldData.linkType.value).Some?
    ensures var rc := Lookup(fields, fieldData.linkType.value).value;
      && rc.JObj? && Lookup(rc.fields, "urlTemplate").Some? && Lookup(rc.fields, "urlTemplate").value.JStr?
      && GenerateUrl(fieldData, config) ==
         ProcessUrlTemplate(Lookup(rc.fields, "urlTemplate").value.s, fieldData.relatedData.value)
  {
    AcceptedTemplates(config, fieldData.linkType.value);
  }

  /** `getConfiguredRelations()`: `Object.keys(config.relations || {})`. */
  function ConfiguredRelations(config: Config): (keys: seq<string>)
    ensures config.relations.None? || !IsTruthy(config.relations.value) ==> keys == []
    ensures config.relations.Some? && IsTruthy(config.relations.value) ==> keys == OwnKeys(config.relations.value)
  {
    match config.relations
    case Some(j) => if IsTruthy(j) then OwnKeys(j) else []
    case None => []
  }

  /** With an object of relations, the configured relations are its keys in order. */
  lemma ConfiguredRelationsAreKeys(config: Config, fields: seq<(string, Json)>)
    requires config.relations == Some(JObj(fields))
    ensures |ConfiguredRelations(config)| == |fields|
    ensures forall i :: 0 <= i < |fields| ==> ConfiguredRelations(config)[i] == fields[i].0
    ensures forall k :: k in ConfiguredRelations(config) <==> Lookup(fields, k).Some?
  {
    var keys := ConfiguredRelations(config);
    forall k ensures k in keys <==> Lookup(fields, k).Some? {
      if k in keys {
        var i :| 0 <= i < |keys| && keys[i] == k;
        assert fields[i].0 == k;
      }
      if Lookup(fields, k).Some? {
        var i :| 0 <= i < |fields| && fields[i].0 == k;
        assert keys[i] == k;
      }
    }
  }

  /** The default configuration offers no relations. */
  lemma DefaultConfigHasNoRelations()
    ensures ConfiguredRelations(DefaultConfig()) == []
  {
  }

  /** The three display fields the search term is matched against, case-insensitively. */
  const SearchFields: seq<string> := ["title", "name", "slug"]

  /** `{ $or: [{ field: { $containsi: term } } ...] }` over `fields`. */
  datatype Filter = AnyContains(fields: seq<string>, term: string)

  /** What `getRelationOptions` asks of the host: nothing (it returns []), or one findMany call. */
  datatype OptionsQuery = NoQuery | FindMany(contentType: string, filters: Option<Filter>)

  /** The guard and query construction of `getRelationOptions(relationKey, search)`. */
  function RelationOptionsQuery(relationKey: string, search: Option<string>, contentTypes: set<string>): (q: OptionsQuery)
    ensures q.NoQuery? <==> relationKey == "" || !StartsWith(relationKey, RelationPrefix) || relationKey !in contentTypes
    ensures q.FindMany? ==> q.contentType == relationKey
    ensures q.FindMany? ==> (q.filters.Some? <==> search.Some? && search.value != "")
    ensures q.FindMany? && q.filters.Some? ==> q.filters.value == AnyContains(SearchFields, search.value)
  {
    if relationKey == "" || !StartsWith(relationKey, RelationPrefix) then NoQuery
    else
      var filters := if search.Some? && search.value != "" then Some(AnyContains(SearchFields, search.value)) else None;
      if relationKey !in contentTypes then NoQuery
      else FindMany(relationKey, filters)
  }
}

=== FILE: types.dfy ===
/**
 * The shapes shared by the server and the admin side of the link field:
 * the persisted link value and the related-record payload it carries
 * (types.ts), together with the few JavaScript value notions the code
 * relies on (null versus a missing property, truthiness).
 */
module Types {

  datatype Option<+T> = None | Some(value: T)

  /** A property of a JavaScript object: missing, present but null, or set. */
  datatype Slot<+T> = Absent | Null | Has(value: T)

  /** An attribute value of a related record: a string, an integer or null. */
  datatype Value = Str(s: string) | Num(n: int) | Nil

  /**
   * The related-record payload is an open record; types.ts fixes the type of
   * two of its keys: `id` is a number (or null) and `url` a string (or null).
   */
  predicate WellTyped(r: map<string, Value>)
  {
    && ("id" in r ==> !r["id"].Str?)
    && ("url" in r ==> !r["url"].Num?)
  }

  type RelatedData = r: map<string, Value> | WellTyped(r) witness map[]

  /** `record[name]`: a missing key reads as undefined, which the code treats like null. */
  function Field(r: map<string, Value>, name: string): Value
  {
    if name in r then r[name] else Nil
  }

  /** The persisted value of one link field (types.ts). */
  datatype LinkValue = LinkValue(
    openInNewTab: Slot<bool>,
    linkType: Slot<string>,
    relatedData: Slot<RelatedData>,
    text: Slot<string>,
    url: Slot<string>)

  /** JavaScript truthiness of an optional string property: set and non-empty. */
  predicate Truthy(s: Slot<string>)
  {
    s.Has? && s.value != ""
  }

  /** `value.relatedData?.id` when it is truthy (a non-zero number). */
  function TruthyId(rd: Slot<RelatedData>): (r: Option<int>)
    ensures r.Some? <==> rd.Has? && Field(rd.value, "id").Num? && Field(rd.value, "id").n != 0
    ensures r.Some? ==> r.value != 0 && Field(rd.value, "id") == Num(r.value)
  {
    if rd.Has? then
      match Field(rd.value, "id")
      case Num(n) => if n != 0 then Some(n) else None
      case _ => None
    else None
  }

  /** `value.relatedData?.url` when it is truthy (a non-empty string). */
  function TruthyUrl(rd: Slot<RelatedData>): (r: Option<string>)
    ensures r.Some? <==> rd.Has? && Field(rd.value, "url").Str? && Field(rd.value, "url").s != ""
    ensures r.Some? ==> r.value != "" && Field(rd.value, "url") == Str(r.value)
  {
    if rd.Has? then
      match Field(rd.value, "url")
      case Str(s) => if s != "" then Some(s) else None
      case _ => None
    else None
  }

  /** `s.startsWith(prefix)`. */
  predicate StartsWith(s: string, prefix: string)
  {
    |prefix| <= |s| && s[..|prefix|] == prefix
  }
}

=== FILE: url_template.dfy ===
/**
 * URL template expansion (`processUrlTemplate`): one left-to-right pass of
 * the global replace `/\{(\w+)\}/g` over the template. Every `{name}` token
 * whose value in the record is neither null nor missing becomes that value's
 * string form; any other text, including the tokens of missing keys, is
 * copied as it is, and substituted text is never scanned again.
 */
module UrlTemplate {
  import opened Types
  import Decimal

  /** `\w`: an ASCII letter, digit or underscore. */
  predicate IsWordChar(c: char)
  {
    ('a' <= c <= 'z') || ('A' <= c <= 'Z') || ('0' <= c <= '9') || c == '_'
  }

  predicate IsTokenName(name: string)
  {
    |name| > 0 && forall k :: 0 <= k < |name| ==> IsWordChar(name[k])
  }

  /** The token text `{name}`. */
  function Token(name: string): string
  {
    "{" + name + "}"
  }

  /** `String(value)` for a non-null value: a string as it is, a number as its canonical numeral. */
  function ValueText(v: Value): (t: string)
    requires !v.Nil?
    ensures v.Str? ==> t == v.s
    ensures v.Num? ==> Decimal.IsNumeral(t) && Decimal.NumeralValue(t) == v.n
  {
    match v
    case Str(s) => s
    case Num(n) =>
      Decimal.IntToDecimalRoundTrip(n);
      Decimal.IntToDecimal(n)
  }

  /** The replacement callback: the value's text, or the match itself when the value is null or missing. */
  function Replacement(name: string, data: map<string, Value>): (r: string)
    ensures !Field(data, name).Nil? ==> r == ValueText(Field(data, name))
    ensures Field(data, name).Nil? ==> r == Token(name)
  {
    var v := Field(data, name);
    if v.Nil? then Token(name) else ValueText(v)
  }

  /** The length of the longest prefix of `s` made of word characters (the greedy `\w+`). */
  function WordRun(s: string): (n: nat)
    ensures n <= |s|
    ensures forall k :: 0 <= k < n ==> IsWordChar(s[k])
    ensures n < |s| ==> !IsWordChar(s[n])
  {
    if |s| > 0 && IsWordChar(s[0]) then 1 + WordRun(s[1..]) else 0
  }

  /** The name of the token the regular expression matches at the start of `t`, if it matches there. */
  function TokenAt(t: string): (r: Option<string>)
    ensures r.Some? ==> IsTokenName(r.value) && |r.value| + 2 <= |t| && t[..|r.value| + 2] == Token(r.value)
    ensures |t| == 0 || t[0] != '{' ==> r.None?
  {
    if |t| > 0 && t[0] == '{' then
      var n := WordRun(t[1..]);
      if 0 < n && n + 1 < |t| && t[n + 1] == '}' then
        assert t[..n + 2] == Token(t[1..n + 1]);
        Some(t[1..n + 1])
      else None
    else None
  }

  /** The match at the start of `t` is found whenever `t` begins with a token. */
  lemma TokenAtComplete(t: string, name: string)
    requires IsTokenName(name) && |name| + 2 <= |t| && t[..|name| + 2] == Token(name)
    ensures TokenAt(t) == Some(name)
  {
    assert t[0] == '{';
    assert t[1..][..|name|] == name;
    assert t[1..][|name|] == '}';
    assert WordRun(t[1..]) == |name|;
    assert t[1..|name| + 1] == name;
  }

  /** `template.replace(/\{(\w+)\}/g, ...)`: a template in which nothing matches comes back unchanged. */
  function ProcessUrlTemplate(template: string, data: map<string, Value>): (url: string)
    ensures TokenNames(template) == [] ==> url == template
    decreases |template|
  {
    if template == [] then []
    else
      match TokenAt(template)
      case Some(name) => Replacement(name, data) + ProcessUrlTemplate(template[|name| + 2..], data)
      case None =>
        var rest := ProcessUrlTemplate(template[1..], data);
        assert TokenNames(template) == TokenNames(template[1..]);
        assert TokenNames(template) == [] ==> [template[0]] + rest == template;
        [template[0]] + rest
  }

  /** The names of the tokens the pass matches, left to right. */
  function TokenNames(template: string): (names: seq<string>)
    ensures forall k :: 0 <= k < |names| ==> IsTokenName(names[k])
    decreases |template|
  {
    if template == [] then []
    else
      match TokenAt(template)
      case Some(name) => [name] + TokenNames(template[|name| + 2..])
      case None => TokenNames(template[1..])
  }

  /** A token at the front is replaced by its value's text, and the pass resumes right after it. */
  lemma ExpandToken(name: string, rest: string, data: map<string, Value>)
    requires IsTokenName(name)
    ensures ProcessUrlTemplate(Token(name) + rest, data) == Replacement(name, data) + ProcessUrlTemplate(rest, data)
    ensures TokenNames(Token(name) + rest) == [name] + TokenNames(rest)
  {
    var t := Token(name) + rest;
    assert t[..|name| + 2] == Token(name);
    TokenAtComplete(t, name);
    assert t[|name| + 2..] == rest;
  }

  /** A character that does not start a token is copied, and the pass resumes at the next one. */
  lemma ExpandLiteral(c: char, rest: string, data: map<string, Value>)
    requires TokenAt([c] + rest).None?
    ensures ProcessUrlTemplate([c] + rest, data) == [c] + ProcessUrlTemplate(rest, data)
    ensures TokenNames([c] + rest) == TokenNames(rest)
  {
    assert ([c] + rest)[1..] == rest;
  }

  /** The output is determined by the values of the matched token names alone. */
  lemma {:induction false} ExpandDependsOnlyOnTokens(template: string, d1: map<string, Value>, d2: map<string, Value>)
    requires forall name :: name in TokenNames(template) ==> Field(d1, name) == Field(d2, name)
    ensures ProcessUrlTemplate(template, d1) == ProcessUrlTemplate(template, d2)
    decreases |template|
  {
    if template != [] {
      match TokenAt(template)
      case Some(name) =>
        var rest := template[|name| + 2..];
        assert template == Token(name) + rest;
        ExpandToken(name, rest, d1);
        ExpandToken(name, rest, d2);
        assert name in TokenNames(template);
        forall n | n in TokenNames(rest) ensures Field(d1, n) == Field(d2, n) {
          assert n in TokenNames(template);
        }
        ExpandDependsOnlyOnTokens(rest, d1, d2);
      case None =>
        var rest := template[1..];
        assert template == [template[0]] + rest;
        ExpandLiteral(template[0], rest, d1);
        ExpandLiteral(template[0], rest, d2);
        ExpandDependsOnlyOnTokens(rest, d1, d2);
    }
  }

  /** Tokens whose keys are missing or null are copied verbatim, so such a record leaves the template unchanged. */
  lemma {:induction false} ExpandWithoutValues(template: string, data: map<string, Value>)
    requires forall name :: name in TokenNames(template) ==> Field(data, name).Nil?
    ensures ProcessUrlTemplate(template, data) == template
    decreases |template|
  {
    if template != [] {
      match TokenAt(template)
      case Some(name) =>
        var rest := template[|name| + 2..];
        assert template == Token(name) + rest;
        assert TokenNames(template) == [name] + TokenNames(rest);
        assert Replacement(name, data) == Token(name);
        ExpandWithoutValues(rest, data);
      case None =>
        assert TokenNames(template) == TokenNames(template[1..]);
        ExpandWithoutValues(template[1..], data);
        assert template == [template[0]] + template[1..];
    }
  }

  /** A template without `{` contains no token, so the pass returns it unchanged. */
  lemma {:induction false} ExpandWithoutBrace(template: string, data: map<string, Value>)
    requires '{' !in template
    ensures TokenNames(template) == []
    ensures ProcessUrlTemplate(template, data) == template
    decreases |template|
  {
    if template != [] {
      assert TokenAt(template).None?;
      assert '{' !in template[1..];
      ExpandWithoutBrace(template[1..], data);
      assert template == [template[0]] + template[1..];
    }
  }

  /** An empty record leaves every template unchanged, e.g. "/posts/{slug}". */
  lemma ExpandEmptyRecord(template: string)
    ensures ProcessUrlTemplate(template, map[]) == template
    ensures ProcessUrlTemplate("/posts/{slug}", map[]) == "/posts/{slug}"
  {
    ExpandWithoutValues(template, map[]);
    ExpandWithoutValues("/posts/{slug}", map[]);
  }

  /** Substituted text is not rescanned: "/{a}" with a = "{b}" gives "/{b}", whatever b is. */
  lemma NoRescan(data: map<string, Value>)
    requires Field(data, "a") == Str("{b}")
    ensures ProcessUrlTemplate("/{a}", data) == "/{b}"
  {
    assert "/{a}" == ['/'] + "{a}";
    assert "{a}" == Token("a") + "";
    assert IsWordChar('a');
    assert Replacement("a", data) == "{b}";
    ExpandToken("a", "", data);
    ExpandLiteral('/', "{a}", data);
  }

  /** "/posts/{slug}-{id}" with slug = "intro" and id = 42 gives "/posts/intro-42". */
  lemma SubstitutionExample(data: map<string, Value>)
    requires Field(data, "slug") == Str("intro") && Field(data, "id") == Num(42)
    ensures ProcessUrlTemplate("/posts/{slug}-{id}", data) == "/posts/intro-42"
  {
    SlugIdShape();
    assert Replacement("slug", data) == "intro";
    assert Replacement("id", data) == "42" by {
      assert Decimal.IntToDecimal(42) == "42";
    }
    ExpandTwoTokensIn("/posts/{slug}-{id}", "/posts/", "slug", "-", "id", data, "/posts/intro-42");
  }

  /** The pieces of the example template and of its expected expansion. */
  lemma SlugIdShape()
    ensures "/posts/{slug}-{id}" == "/posts/" + (Token("slug") + ("-" + Token("id")))
    ensures "/posts/intro-42" == "/posts/" + ("intro" + ("-" + "42"))
    ensures '{' !in "/posts/" && '{' !in "-"
    ensures IsTokenName("slug") && IsTokenName("id")
  {
    assert IsWordChar('s') && IsWordChar('l') && IsWordChar('u') && IsWordChar('g');
    assert IsWordChar('i') && IsWordChar('d');
  }

  /** `ExpandTwoTokens` for a template and an expansion given as wholes. */
  lemma ExpandTwoTokensIn(template: string, p1: string, n1: string, p2: string, n2: string,
                          data: map<string, Value>, expected: string)
    requires template == p1 + (Token(n1) + (p2 + Token(n2)))
    requires '{' !in p1 && '{' !in p2 && IsTokenName(n1) && IsTokenName(n2)
    requires expected == p1 + (Replacement(n1, data) + (p2 + Replacement(n2, data)))
    ensures ProcessUrlTemplate(template, data) == expected
  {
    ExpandTwoTokens(p1, n1, p2, n2, data);
  }

  /** Literal text, a token, literal text and a token: each token is replaced in place. */
  lemma ExpandTwoTokens(p1: string, n1: string, p2: string, n2: string, data: map<string, Value>)
    requires '{' !in p1 && '{' !in p2 && IsTokenName(n1) && IsTokenName(n2)
    ensures ProcessUrlTemplate(p1 + (Token(n1) + (p2 + Token(n2))), data)
         == p1 + (Replacement(n1, data) + (p2 + Replacement(n2, data)))
  {
    ExpandToken(n2, [], data);
    assert Token(n2) + [] == Token(n2);
    ExpandPrefixWithoutBrace(p2, Token(n2), data);
    ExpandToken(n1, p2 + Token(n2), data);
    ExpandPrefixWithoutBrace(p1, Token(n1) + (p2 + Token(n2)), data);
    assert Replacement(n2, data) + [] == Replacement(n2, data);
  }

  /** Text without `{` in front of the rest is copied as it is. */
  lemma {:induction false} ExpandPrefixWithoutBrace(prefix: string, rest: string, data: map<string, Value>)
    requires '{' !in prefix
    ensures ProcessUrlTemplate(prefix + rest, data) == prefix + ProcessUrlTemplate(rest, data)
    decreases |prefix|
  {
    if prefix != [] {
      var c, tail := prefix[0], prefix[1..];
      assert prefix == [c] + tail;
      assert prefix + rest == [c] + (tail + rest);
      assert c != '{';
      ExpandLiteral(c, tail + rest, data);
      ExpandPrefixWithoutBrace(tail, rest, data);
      calc {
        ProcessUrlTemplate(prefix + rest, data);
        [c] + ProcessUrlTemplate(tail + rest, data);
        [c] + (tail + ProcessUrlTemplate(rest, data));
        prefix + ProcessUrlTemplate(rest, data);
      }
    } else {
      assert prefix + rest == rest;
    }
  }

  /** Braces that do not enclose a word name are plain text: "{}" is never rewritten. */
  lemma EmptyBracesPassThrough(data: map<string, Value>)
    ensures ProcessUrlTemplate("{}", data) == "{}"
  {
    assert WordRun("}") == 0;
    assert TokenAt("{}").None?;
    ExpandLiteral('{', "}", data);
    ExpandWithoutBrace("}", data);
    assert "{}" == ['{'] + "}";
  }

  /** A name with a character outside `\w` is not a token: "{a-b}" is never rewritten. */
  lemma NonWordNamePassThrough(data: map<string, Value>)
    ensures ProcessUrlTemplate("{a-b}", data) == "{a-b}"
  {
    assert !IsWordChar('-');
    assert WordRun("-b}") == 0;
    assert WordRun("a-b}") == 1;
    assert TokenAt("{a-b}").None?;
    ExpandLiteral('{', "a-b}", data);
    ExpandWithoutBrace("a-b}", data);
    assert "{a-b}" == ['{'] + "a-b}";
  }

  /** Lone braces are plain text: "}{" is never rewritten. */
  lemma LoneBracesPassThrough(data: map<string, Value>)
    ensures ProcessUrlTemplate("}{", data) == "}{"
  {
    assert WordRun("") == 0;
    assert TokenAt("{").None?;
    ExpandLiteral('{', "", data);
    ExpandLiteral('}', "{", data);
    assert "}{" == ['}'] + "{";
    assert "{" == ['{'] + "";
  }
}
